=== FILE: README.md ===
# Transaction event alerts, modelled in Dafny

This project models the core of a small transaction-monitoring service. A
client posts one event at a time: a deposit or a withdrawal of an amount, for a
user, at an integer time. The service validates the request body. It rejects a
bad one with the first error found. It appends a good one to that user's
history, and then reports which of four alert rules fire on the updated
history:

- 1100: the event is a withdrawal of more than 100.
- 30: the last three events are all withdrawals.
- 300: the last three deposits strictly increase.
- 123: deposits made no more than 30 time units ago add up to more than 200.

The model has these modules:

- `Text` holds Python's `<` on `str` and a decimal reader that stands in for
  `float(str)`.
- `Events` holds raw JSON values, events, and the store of per-user histories.
  The store replaces the process-global dict.
- `Validation` holds `validate_payload`.
- `Rules` holds the four rules and how their codes are assembled.
- `Engine` holds the `event` handler as a pure function
  `store × body → store × response`.
- `Scenarios` replays the repository's test scenarios and the inputs behind the
  findings below.

Python exceptions that escape the handler are modelled as an explicit `Fault`
response, which is an HTTP 500.

Rule 300 as written compares the amounts as submitted. With text amounts that
means string order. Its comment calls the rule "3 Increasing Deposits"
(app/routes.py:75), and every other use of an amount turns it into a number
first (`float(...)` at app/routes.py:22, :66 and :86). The model follows the
code and also states the numeric reading. The handler is parameterised by the
comparison used:

- `Engine.Submit` is the code as written. The scenario lemmas are stated for it.
- `Engine.SubmitIntended` compares the parsed amounts.

The two differ only on rule 300. See "Findings".

## Model

| member | source | states |
|---|---|---|
| Text.StrLess | app/routes.py:77 | Python's `<` between two `str` amounts, by code point. Its meaning is stated by `Text.StrLessIsLexBefore`, `Text.StrLessIrreflexive`, `Text.StrLessTransitive` and `Text.StrLessTotal`. |
| Text.StrLessIsLexBefore | app/routes.py:77 | Python's `<` on two texts is lexicographic order: smaller at the first differing character, or a proper prefix. Both directions are proved against a non-recursive definition. |
| Text.StrLessIrreflexive | app/routes.py:77 | No text is less than itself, so equal amounts never count as increasing. |
| Text.StrLessTransitive | app/routes.py:77 | Text order is transitive. |
| Text.StrLessTotal | app/routes.py:77 | Any two texts are equal or ordered one way, so comparing two text amounts never raises. |
| Text.DigitsValueShowNat | app/routes.py:22 | Reading back the decimal spelling of a natural number gives that number. |
| Text.ParseDecimal | app/routes.py:22 | `float` of a text amount. A text that reads as a value is non-empty, and a negative value starts with "-". `Text.DigitsValueShowNat` and `Text.ParseShowCents` state which values it reads. |
| Text.ParseShowCents | app/routes.py:22 | Reading back an amount spelled the way clients send it, such as "123.45" or "-0.07", gives exactly that amount. |
| Events.ToFloat | app/routes.py:21-27 | `float` raises TypeError exactly for null, arrays and objects. It raises OverflowError exactly for an integer of magnitude at least 2^1024 - 2^970, which rounds past the largest double. It raises ValueError only for text that does not read as a decimal. Converted text has the value the reader gives it, and a converted integer keeps its value. |
| Events.Append | app/routes.py:56-62 | The user's list is created on first use. The event goes at its end. Every other user's history is unchanged. |
| Events.AppendPreservesWellFormed | app/routes.py:38-41 | Appending an admissible event later than the user's last one keeps every history non-empty, strictly time-ordered, and holding only that user's admissible events. |
| Validation.FirstMissingFrom | app/routes.py:9-14 | Finds the first required field, in the order type, amount, user_id, time, that the body lacks. None means all are present. |
| Validation.Validate | app/routes.py:8-44 | An accepted event carries the submitted type, raw amount, user and time. Its amount is the non-negative `float` of the raw value. Its time is strictly after the user's last stored time. |
| Validation.ValidateChecksInOrder | app/routes.py:8-44 | Each error is reported exactly when every earlier check passed and its own check failed. An exception arises exactly for an amount that is null, an array, an object or an integer too large for a double (none of which `except ValueError` catches), or for an empty stored list. The body is accepted exactly when every check passes. |
| Validation.Message | app/routes.py:14-41 | The seven error messages, verbatim. `Validation.MessageRoundTrip` states that no two errors share one, and `Scenarios.TestedMessages` checks four against the tests. |
| Validation.MessageRoundTrip | app/routes.py:14-41 | The error is recovered from its user-facing message, so no two errors share a message. |
| Validation.WellFormedRaisesOnlyOnAmount | app/routes.py:21-27 | On a well-formed store, validation raises exactly when `float` meets an amount that is null, an array, an object, or an integer too large for a double. The `except ValueError` catches neither TypeError nor OverflowError. The `[-1]` lookup always succeeds. |
| Validation.ValidateReadsOwnEntry | app/routes.py:38-41 | Validation reads the store only at the submitting user's entry. |
| Validation.ValidKeepsWellFormed | app/routes.py:38-41 | An accepted event can be appended without breaking the store invariant. |
| Rules.LargeWithdrawal | app/routes.py:65-67 | Code 1100's condition on the updated history: its last event is a withdrawal of more than 100. `Rules.Evaluate` and `Engine.SubmitReportsRules` state that 1100 is reported exactly when it holds. |
| Rules.ThreeWithdrawals | app/routes.py:69-73 | Code 30's condition. `Rules.ThreeWithdrawalsLooksAtLastThree` states that it holds exactly when the last three stored events are withdrawals. |
| Rules.ThreeWithdrawalsLooksAtLastThree | app/routes.py:69-73 | Code 30 fires exactly when the last three stored events are withdrawals. Earlier events do not matter. |
| Rules.Deposits | app/routes.py:76 | The deposit list is no longer than the history. `Rules.DepositsMembers` states which events it holds, and `Rules.LastDepositAt` and `Rules.LastThreeDepositsByIndex` state their order. |
| Rules.DepositsMembers | app/routes.py:76 | The deposit list holds only events of the history that are deposits, and it holds every one of them. |
| Rules.LastDepositAt | app/routes.py:76-77 | Finds the position of the last deposit: it is a deposit, no later position is, and the deposit list is the deposits before it followed by it. |
| Rules.LastThreeDepositsByIndex | app/routes.py:76-77 | `deposits[-3]`, `[-2]` and `[-1]` are exactly the events at three deposit positions i < j < k of the history such that no other position after i holds a deposit. Both directions are proved. |
| Rules.DepositsOfDepositsOnly | app/routes.py:76 | A history made only of deposits is its own deposit list. |
| Rules.RawGreater | app/routes.py:77 | Two text amounts compare as texts, and two numbers by value. The comparison raises exactly when not both are text and one of them is not a number. |
| Rules.IncreasingDeposits | app/routes.py:77-78 | Rule 300's chained comparison. It raises only when comparing amounts as submitted, and fires only when there are at least three deposits. `Rules.IncreasingDepositsRaw` states when it fires and when it raises as written, for any mix of amounts. `Rules.IncreasingDepositsNumeric`, `Rules.IncreasingDepositsText` and `Rules.NumberDepositsCompareNumerically` state when it fires for numbers, for text, and for deposits all sent as numbers. |
| Rules.IncreasingDepositsNumeric | app/routes.py:75-78 | Compared as numbers, rule 300 never raises. It fires exactly when there are three deposits and the last three amounts strictly increase. |
| Rules.IncreasingDepositsRaw | app/routes.py:76-78 | As written, rule 300 fires exactly when there are three deposits, the newest is greater than the one before under Python's `>` on the raw values, and that one is greater than the third newest. It raises exactly when the first comparison raises, or the first holds and the second raises. |
| Rules.NumberDepositsCompareNumerically | app/routes.py:76-78 | When every deposit was sent as a JSON number, whose amount `float` keeps as is (app/routes.py:22), rule 300 as written gives the same verdict as comparing parsed amounts, so it never raises. |
| Rules.IncreasingDepositsText | app/routes.py:75-78 | When every deposit amount is text, rule 300 as written never raises. It fires exactly when the last three raw amounts increase in text order. |
| Rules.WithdrawalKeepsIncreasingDeposits | app/routes.py:75-78 | A withdrawal leaves rule 300's verdict as it was, so code 300 can be reported again on a withdrawal. |
| Rules.RecentDeposits | app/routes.py:82-85 | The window holds only deposits of the history lying at most 30 units before the current time, and it holds every such deposit. |
| Rules.TotalOfWindowIsWindowSum | app/routes.py:82-87 | The total that rule 123 compares with 200 is the sum, over every position of the history, of the amount there when it is a deposit within the window: each such deposit is counted exactly once. |
| Rules.RecentDepositsOfRecentDepositsOnly | app/routes.py:82-85 | A history of recent deposits is its own window. |
| Rules.WithdrawalsOnlyHaveNoDeposits | app/routes.py:76-85 | A history of withdrawals has neither deposits nor a window. |
| Rules.Total | app/routes.py:86 | The sum of the amounts in a list. `Rules.TotalOfWindowIsWindowSum` states what it adds up for rule 123, and `Rules.TotalNonNegative` bounds it. |
| Rules.DepositVelocity | app/routes.py:80-88 | Code 123's condition: the window's total exceeds 200. `Rules.VelocityWindowIsSuffix` and `Rules.TotalOfWindowIsWindowSum` state which deposits it adds up, and `Rules.LargeDepositAloneFiresVelocity` states when it must hold. |
| Rules.TotalNonNegative | app/routes.py:86 | The sum of non-negative amounts is non-negative. |
| Rules.VelocityWindowIsSuffix | app/routes.py:80-88 | With strictly increasing times, the window is the deposits of a suffix of the history, and that suffix contains the current event. |
| Rules.LargeDepositAloneFiresVelocity | app/routes.py:80-88 | A deposit of more than 200 raises code 123 on its own. |
| Rules.Assemble | app/routes.py:63-88 | A code is reported exactly when its rule fired. Every entry is a rule's code, and its position in the order 1100, 30, 300, 123 grows strictly along the list, so there are no repeats. The list is empty exactly when no rule fired. |
| Rules.Evaluate | app/routes.py:63-88 | Evaluation raises exactly when rule 300's comparison raises. Otherwise each code is present exactly when its rule holds on the updated history, in rule order and without repeats. |
| Engine.SubmitWith | app/routes.py:47-94 | A rejected or raising validation leaves the store unchanged. An accepted body appends exactly its event to its own user. The answer is a 400 exactly when a check failed. Past validation it is a 500 exactly when the rules raise, and otherwise a 200 carrying the rules' codes. The alert flag is true exactly when codes were reported. |
| Engine.Submit | app/routes.py:47-94 | The handler as written, comparing amounts as submitted. `Engine.SubmitWith`, `Engine.SubmitReportsRules` and `Engine.SubmitPreservesWellFormed` state its behaviour. |
| Engine.SubmitIntended | app/routes.py:47-94 | The handler comparing parsed amounts. `Engine.IntendedSubmitIsAtomic` and `Engine.IntendedSubmissionsAllAccepted` state its behaviour. |
| Engine.SubmitChangesStoreIffValid | app/routes.py:50-62 | The store changes exactly when the body passes validation. |
| Engine.SubmitReportsRules | app/routes.py:63-94 | An accepted event is the last one in its user's history. A fault after acceptance happens exactly when rule 300's comparison raises, which is only under the as-written order. Each code is reported exactly when its rule holds, in rule order. |
| Engine.SubmitPreservesWellFormed | app/routes.py:38-62 | Every submission keeps the store invariant. |
| Engine.IntendedSubmitIsAtomic | app/routes.py:56-78 | Comparing parsed amounts, a submission is accepted exactly when it validates. A submission that is not accepted changes nothing. |
| Engine.AnswerDependsOnlyOnOwnHistory | app/routes.py:38-88 | Two stores that agree on the submitting user's entry give the same answer. |
| Engine.GoodSubmissionAccepted | app/routes.py:8-78 | A body that passes every field check, with a text, integer or number amount, and a time later than the user's last event, is accepted and stored at the end of that history. Comparing parsed amounts this holds for any amount. As written it holds when the user's stored and new amounts are all text or all numbers, and they stay so. The store invariant is kept. |
| Engine.IncreasingSubmissionsAllAccepted | app/routes.py:8-78 | Such bodies for one user with strictly increasing times are all accepted, and the history grows by exactly their number. Comparing parsed amounts, any mix of amounts will do. As written, the user's stored and submitted amounts must be all text or all numbers. |
| Engine.IntendedSubmissionsAllAccepted | app/routes.py:8-78 | Comparing parsed amounts, increasing well-formed bodies for one user are all accepted, whatever mix of text, integer and number amounts they carry. |
| Scenarios.DepositNoAlert | tests/test_event.py:13-23 | A deposit of "50.00" for a new user is answered 200 with no alert and no codes. |
| Scenarios.WithdrawalOver100 | tests/test_event.py:27-37 | A withdrawal of "150.00" is answered with exactly code 1100. |
| Scenarios.ThreeConsecutiveWithdrawals | tests/test_event.py:41-49 | The third of three withdrawals of 50, 30 and 70 is answered with exactly code 30. |
| Scenarios.MissingType | tests/test_event.py:53-60 | A body without `type` is rejected for it, and the store is unchanged. |
| Scenarios.InvalidAmount | tests/test_event.py:64-72 | The amount "invalid" is rejected as not a number, and the store is unchanged. |
| Scenarios.NegativeAmountRejected | tests/test_event.py:76-84 | The amount "-100.00" is rejected as negative, and the store is unchanged. |
| Scenarios.LargeAmountAccepted | tests/test_event.py:88-100 | A withdrawal of "9999999999.99" is accepted and raises exactly code 1100. |
| Scenarios.NonSequentialTimeRejected | tests/test_event.py:104-109 | A second deposit at an earlier time is rejected, and only the first deposit stays stored. |
| Scenarios.EmptyPayload | tests/test_event.py:113-116 | An empty body is rejected for the missing `type`. |
| Scenarios.TestedMessages | tests/test_event.py:60-109 | The four messages the tests compare against, verbatim. |
| Scenarios.ThreeIncreasingDeposits | tests/test_event.py:120-128 | The third of three deposits of 50, 60 and 70 is answered with exactly code 300. |
| Scenarios.DepositsOver200Within30 | tests/test_event.py:132-140 | Deposits of 100, 120 and 100 within 30 units are answered with exactly code 123. |
| Scenarios.DepositsSpreadOut | tests/test_event.py:144-151 | Two deposits 35 units apart raise nothing. |
| Scenarios.TextOrderMissesIncrease | app/routes.py:75-78 | As written, deposits "8.00", "9.00", "10.00" raise no alert. |
| Scenarios.NumericOrderSeesIncrease | app/routes.py:75-78 | Comparing parsed amounts, the same deposits raise exactly code 300. |
| Scenarios.TextOrderInventsIncrease | app/routes.py:75-78 | As written, deposits "100.00", "20.00", "3.00" raise code 300. |
| Scenarios.NumericOrderSeesDecrease | app/routes.py:75-78 | Comparing parsed amounts, the same deposits raise nothing. |
| Scenarios.MixedAmountStoredThenFails | app/routes.py:62-78 | As written, a numeric amount after two text deposits gets a 500. The event is stored all the same. |
| Scenarios.WithdrawalAfterFaultFails | app/routes.py:62-78 | Once rule 300 raises on a user's history, that user's next withdrawal is stored and answered with a 500 too. |
| Scenarios.TextDepositAfterNumberFails | app/routes.py:62-78 | A text deposit after at least two earlier deposits, the last of them sent as a number, is stored and answered with a 500. With fewer earlier deposits, `len(deposits) >= 3` stops the comparison. |
| Scenarios.MixedAmountFaultPersists | app/routes.py:62-78 | After "50.00", "60.00" and the number 70, the user's next withdrawal and next text deposit each get a 500, and each is stored. |
| Scenarios.MixedAmountAnsweredWhenNumeric | app/routes.py:62-78 | Comparing parsed amounts, the same submissions are accepted with exactly code 300. |

## Left out

- HTTP and Flask: routing, status codes and JSON encoding are left out. A
  response is `Rejected(error)`, `Accepted(alert, codes, user)` or `Fault`,
  read as 400, 200 and 500.
- A request body that is not a JSON object (`request.json` being None or a
  list): the model's body is always a map from field names to values.
- JSON booleans: Python's `isinstance(True, int)` holds, but `Value` has no
  boolean case.
- Concurrency: the handler mutates a process-global dict without locking. The
  model is sequential.
- Memory growth: histories grow without bound in the source and in the model.
- Events.ToFloat: reads text as plain decimals only, `[+|-]digits[.digits]`.
  Python's `float` also accepts surrounding whitespace, exponents,
  underscores, "inf" and "nan". Those inputs are rejected here, not accepted.
  A JSON number with a fraction or exponent beyond the double range, and text
  spelling such a number, become infinity in Python. Python's `json` also
  accepts the literals `NaN` and `Infinity`. `"amount": NaN` passes
  validation, because `nan < 0` is false, and it then makes every rule-123 sum
  over its window `nan`, so code 123 never fires there. The model's amounts are
  reals: it reads over-large numbers as their exact values, and `Value` has no
  NaN or infinity.
- Floating-point rounding: amounts are exact reals. A sum near 200 or an
  amount near 100 may round differently in Python.
- Scenarios.Reports: states the reported codes as a set. Their order and
  uniqueness come from `Engine.SubmitReportsRules` and `Rules.Evaluate`.
- The test file's fixture, client and `print` calls. The tests share one
  process-wide store. Each scenario starts from any store where its user has
  no history, which `Engine.AnswerDependsOnlyOnOwnHistory` justifies.

## Findings

| source | as written | input that shows it | evidently intended | confidence | as-written member | corrected member |
|---|---|---|---|---|---|---|
| app/routes.py:77 | Rule 300 compares `deposits[i]['amount']` as submitted, so text amounts are compared as strings. | One user deposits "8.00", "9.00", "10.00" at times 10, 20, 30: no 300. Deposits of "100.00", "20.00", "3.00": 300 fires. | Compare the numeric amounts: the rule is named "3 Increasing Deposits" (app/routes.py:75), and rules 1100 and 123 turn amounts into numbers before using them (app/routes.py:66, :86). | high; not executed | Scenarios.TextOrderMissesIncrease, Scenarios.TextOrderInventsIncrease | Rules.IncreasingDepositsNumeric, Scenarios.NumericOrderSeesIncrease, Scenarios.NumericOrderSeesDecrease |
| app/routes.py:62-78 | The event is appended before rule 300 compares amounts. A JSON number after text amounts makes `>` raise TypeError, so the client gets a 500 while the event stays stored. The raise then persists: the user's later withdrawals, and a text deposit right after the number, are each stored and answered with a 500. | One user deposits "50.00", "60.00", then the number 70, at times 10, 20, 30. | A submission either stores the event and answers 200, or changes nothing. | medium; not executed | Scenarios.MixedAmountStoredThenFails, Scenarios.MixedAmountFaultPersists, Rules.IncreasingDepositsRaw | Engine.IntendedSubmitIsAtomic, Scenarios.MixedAmountAnsweredWhenNumeric |

=== FILE: engine.dfy ===
/**
  The `event` handler (app/routes.py:47-94) as a pure function of the store
  and the request body: validate, append, evaluate, respond.
 */
module Engine {

  import opened Optional
  import opened Events
  import opened Validation
  import opened Rules

  /** `Rejected` is the 400 answer carrying the error message; `Accepted` the
      200 answer; `Fault` an uncaught Python exception (a 500 answer). */
  datatype Response =
    | Rejected(error: ValidationError)
    | Accepted(alert: bool, codes: seq<int>, user: int)
    | Fault

  /** One submission, with rule 300 comparing amounts under `order`. */
  function SubmitWith(s: Store, p: Payload, order: AmountOrder): (out: (Store, Response))
    // a rejected or crashing validation touches nothing
    ensures Validate(s, p).Invalid? ==> out == (s, Rejected(Validate(s, p).error))
    ensures Validate(s, p).Raises? ==> out == (s, Fault)
    // an accepted one appends exactly the submitted event, to its user only
    ensures Validate(s, p).Valid? ==> out.0 == Append(s, Validate(s, p).event)
    ensures out.1.Accepted? ==>
      Validate(s, p).Valid? && out.1.user == Validate(s, p).event.user && (out.1.alert <==> |out.1.codes| > 0)
    // only a failed check is answered 400; past validation, the rules decide
    // between a 500 and the reported codes
    ensures out.1.Rejected? <==> Validate(s, p).Invalid?
    ensures Validate(s, p).Valid? ==>
      var h := HistoryOf(out.0, Validate(s, p).event.user);
      && |h| > 0
      && (out.1.Fault? <==> Evaluate(h, order).None?)
      && (out.1.Accepted? ==> out.1.codes == Evaluate(h, order).value)
  {
    match Validate(s, p)
    case Invalid(e) => (s, Rejected(e))
    case Raises => (s, Fault)
    case Valid(ev) =>
      var s' := Append(s, ev);
      match Evaluate(HistoryOf(s', ev.user), order)
      case None => (s', Fault)
      case Some(codes) => (s', Accepted(|codes| > 0, codes, ev.user))
  }

  /** The store changes exactly when the submission passes validation. */
  lemma SubmitChangesStoreIffValid(s: Store, p: Payload, order: AmountOrder)
    ensures SubmitWith(s, p, order).0 != s <==> Validate(s, p).Valid?
  {
    if Validate(s, p).Valid? {
      var ev := Validate(s, p).event;
      assert |HistoryOf(SubmitWith(s, p, order).0, ev.user)| != |HistoryOf(s, ev.user)|;
    }
  }

  /** The answer to an accepted submission reports each rule's verdict on the
      user's updated history, in rule order; a fault after acceptance comes
      only from rule 300's comparison of raw values. */
  lemma SubmitReportsRules(s: Store, p: Payload, order: AmountOrder)
    requires Validate(s, p).Valid?
    ensures var ev := Validate(s, p).event;
      var out := SubmitWith(s, p, order);
      var h := HistoryOf(out.0, ev.user);
      && |h| > 0 && h[|h| - 1] == ev
      && (out.1.Fault? <==> IncreasingDeposits(h, order).None?)
      && (out.1.Fault? ==> order == AsSubmitted)
      && (out.1.Accepted? ==>
        && (LargeWithdrawalCode in out.1.codes <==> LargeWithdrawal(h))
        && (ConsecutiveWithdrawalsCode in out.1.codes <==> ThreeWithdrawals(h))
        && (IncreasingDepositsCode in out.1.codes <==> IncreasingDeposits(h, order) == Some(true))
        && (DepositVelocityCode in out.1.codes <==> DepositVelocity(h))
        && InCodeOrder(out.1.codes))
  {
    var ev := Validate(s, p).event;
    var h := HistoryOf(SubmitWith(s, p, order).0, ev.user);
    if order == Numeric {
      IncreasingDepositsNumeric(h);
    }
  }

  /** The handler as written: rule 300 compares the submitted values. */
  function Submit(s: Store, p: Payload): (Store, Response)
  {
    SubmitWith(s, p, AsSubmitted)
  }

  /** The handler with rule 300 comparing parsed amounts. */
  function SubmitIntended(s: Store, p: Payload): (Store, Response)
  {
    SubmitWith(s, p, Numeric)
  }

  /** Every submission keeps each history non-empty, strictly time-ordered and
      made of admissible events of its own user. */
  lemma SubmitPreservesWellFormed(s: Store, p: Payload, order: AmountOrder)
    requires WellFormed(s)
    ensures WellFormed(SubmitWith(s, p, order).0)
  {
    if Validate(s, p).Valid? {
      ValidKeepsWellFormed(s, p);
    }
  }

  /** With numeric comparison a submission is atomic: it either stores the
      event and answers, or changes nothing. */
  lemma IntendedSubmitIsAtomic(s: Store, p: Payload)
    ensures SubmitIntended(s, p).1.Accepted? <==> Validate(s, p).Valid?
    ensures !SubmitIntended(s, p).1.Accepted? ==> SubmitIntended(s, p).0 == s
  {
    if Validate(s, p).Valid? {
      var ev := Validate(s, p).event;
      IncreasingDepositsNumeric(HistoryOf(Append(s, ev), ev.user));
    }
  }

  /** The store entries two stores agree on. */
  predicate SameEntry(s1: Store, s2: Store, u: int)
  {
    (u in s1 <==> u in s2) && (u in s1 ==> s1[u] == s2[u])
  }

  /** Users are independent: the answer depends only on the submitting
      user's own history. */
  lemma AnswerDependsOnlyOnOwnHistory(s1: Store, s2: Store, p: Payload, order: AmountOrder)
    requires "user_id" in p && p["user_id"].Int? ==> SameEntry(s1, s2, p["user_id"].i)
    ensures SubmitWith(s1, p, order).1 == SubmitWith(s2, p, order).1
  {
    ValidateReadsOwnEntry(s1, s2, p);
    if Validate(s1, p).Valid? {
      var ev := Validate(s1, p).event;
      assert ev.user == p["user_id"].i;
      assert HistoryOf(s1, ev.user) == HistoryOf(s2, ev.user);
      var h := HistoryOf(s1, ev.user) + [ev];
      assert HistoryOf(Append(s1, ev), ev.user) == h == HistoryOf(Append(s2, ev), ev.user);
    }
  }

  /** A sequence of submissions, answered one after the other. */
  function Run(s: Store, ps: seq<Payload>, order: AmountOrder): (out: (Store, seq<Response>))
    ensures |out.1| == |ps|
    decreases |ps|
  {
    if |ps| == 0 then (s, [])
    else
      var (s', r) := SubmitWith(s, ps[0], order);
      var (s'', rs) := Run(s', ps[1..], order);
      (s'', [r] + rs)
  }

  lemma RunCons(s: Store, ps: seq<Payload>, order: AmountOrder)
    requires |ps| > 0
    ensures var step := SubmitWith(s, ps[0], order);
      Run(s, ps, order) == (Run(step.0, ps[1..], order).0, [step.1] + Run(step.0, ps[1..], order).1)
  {
  }

  predicate AllAccepted(rs: seq<Response>)
  {
    forall r <- rs :: r.Accepted?
  }

  lemma AllAcceptedCons(r: Response, rs: seq<Response>)
    requires r.Accepted? && AllAccepted(rs)
    ensures AllAccepted([r] + rs)
  {
  }

  /** A request body that passes every field check for user `u` at time `t`:
      its amount is any text, integer or number that `float` turns into a
      non-negative value. */
  predicate GoodPayload(p: Payload, u: int, t: int)
  {
    && HasRequiredFields(p) && KindOk(p) && AmountNonNegative(p)
    && p["user_id"] == Int(u) && p["time"] == Int(t)
  }

  /** The two sorts of amount that the comparison of app/routes.py:77 can put
      side by side without raising: text with text, number with number. */
  datatype Sort = Text | Number

  predicate OfSort(v: Value, k: Sort)
  {
    match k
    case Text => v.Str?
    case Number => NumberOf(v).Some?
  }

  /** Every amount of `h` was submitted as a value of sort `k`. */
  predicate AmountsOfSort(h: History, k: Sort)
  {
    forall e <- h :: OfSort(e.raw, k)
  }

  /** A good body whose time follows the user's last one passes validation as
      an event of that user and time, with its amount kept as submitted. */
  lemma GoodPayloadIsValid(s: Store, u: int, t: int, p: Payload)
    requires GoodPayload(p, u, t)
    requires u in s ==> |s[u]| > 0 && s[u][|s[u]| - 1].time < t
    ensures Validate(s, p).Valid?
    ensures var ev := Validate(s, p).event; ev.user == u && ev.time == t && ev.raw == p["amount"]
  {
    ValidateChecksInOrder(s, p);
  }

  /** Rule 300's comparison never raises under numeric order, nor as written
      when every amount is of one sort. */
  lemma HistoryCompares(h: History, order: AmountOrder, k: Sort)
    requires order == AsSubmitted ==> AmountsOfSort(h, k)
    ensures IncreasingDeposits(h, order).Some?
  {
    if order == Numeric {
      IncreasingDepositsNumeric(h);
    } else {
      var d := Deposits(h);
      DepositsMembers(h);
      forall e <- d ensures OfSort(e.raw, k) {
        assert e in h;
      }
      if |d| >= 3 {
        assert d[|d| - 1] in d && d[|d| - 2] in d && d[|d| - 3] in d;
        assert OfSort(d[|d| - 1].raw, k) && OfSort(d[|d| - 2].raw, k) && OfSort(d[|d| - 3].raw, k);
      }
    }
  }

  /** One good submission whose time follows the user's last one is accepted
      and stored at the end of that user's history. Under numeric order any
      amount will do; as written, the user's amounts must all be of one sort,
      the new one included, and they stay so. */
  lemma GoodSubmissionAccepted(s: Store, u: int, t: int, p: Payload, order: AmountOrder, k: Sort)
    requires WellFormed(s) && GoodPayload(p, u, t)
    requires u in s ==> s[u][|s[u]| - 1].time < t
    requires order == AsSubmitted ==> AmountsOfSort(HistoryOf(s, u), k) && OfSort(p["amount"], k)
    ensures Validate(s, p).Valid? && Validate(s, p).event.user == u
    ensures Validate(s, p).event.time == t && Validate(s, p).event.raw == p["amount"]
    ensures SubmitWith(s, p, order).0 == Append(s, Validate(s, p).event)
    ensures SubmitWith(s, p, order).1.Accepted?
    ensures WellFormed(SubmitWith(s, p, order).0)
    ensures AmountsOfSort(HistoryOf(s, u), k) && OfSort(p["amount"], k) ==>
      AmountsOfSort(HistoryOf(SubmitWith(s, p, order).0, u), k)
    ensures var s' := SubmitWith(s, p, order).0;
      u in s' && |s'[u]| == |HistoryOf(s, u)| + 1 && s'[u][|s'[u]| - 1].time == t
  {
    assert u in s ==> HistoryWellFormed(u, s[u]);
    GoodPayloadIsValid(s, u, t, p);
    var ev := Validate(s, p).event;
    var h := HistoryOf(Append(s, ev), u);
    assert h == HistoryOf(s, u) + [ev];
    HistoryCompares(h, order, k);
    SubmitPreservesWellFormed(s, p, order);
  }

  /** Each body is good for user `u` at its own time. */
  predicate AllGood(ps: seq<Payload>, u: int, ts: seq<int>)
  {
    |ts| == |ps| && forall i :: 0 <= i < |ps| ==> GoodPayload(ps[i], u, ts[i])
  }

  predicate StrictlyIncreasing(ts: seq<int>)
  {
    forall i, j :: 0 <= i < j < |ts| ==> ts[i] < ts[j]
  }

  /** Every body's amount is of sort `k`. */
  predicate AllOfSort(ps: seq<Payload>, k: Sort)
  {
    forall i :: 0 <= i < |ps| ==> "amount" in ps[i] && OfSort(ps[i]["amount"], k)
  }

  /** Dropping the first submission keeps the remaining ones good, of their
      sort, and their times strictly increasing. */
  lemma GoodTail(u: int, ps: seq<Payload>, ts: seq<int>, k: Sort)
    requires |ps| > 0 && AllGood(ps, u, ts) && StrictlyIncreasing(ts)
    ensures AllGood(ps[1..], u, ts[1..]) && StrictlyIncreasing(ts[1..])
    ensures AllOfSort(ps, k) ==> AllOfSort(ps[1..], k) && OfSort(ps[0]["amount"], k)
    ensures GoodPayload(ps[0], u, ts[0])
    ensures |ts| > 1 ==> ts[0] < ts[1..][0]
  {
    forall i | 0 <= i < |ps| - 1 ensures GoodPayload(ps[1..][i], u, ts[1..][i]) {
      assert ps[1..][i] == ps[i + 1] && ts[1..][i] == ts[i + 1];
    }
    forall i, j | 0 <= i < j < |ts| - 1 ensures ts[1..][i] < ts[1..][j] {
      assert ts[1..][i] == ts[i + 1] && ts[1..][j] == ts[j + 1];
    }
    if AllOfSort(ps, k) {
      forall i | 0 <= i < |ps| - 1 ensures "amount" in ps[1..][i] && OfSort(ps[1..][i]["amount"], k) {
        assert ps[1..][i] == ps[i + 1];
      }
    }
  }

  /** What a run of submissions for user `u` needs of the store and of the
      bodies: good bodies at strictly increasing times after the user's last
      one and, as written, amounts all of sort `k`. */
  predicate RunReady(s: Store, u: int, ps: seq<Payload>, ts: seq<int>, order: AmountOrder, k: Sort)
  {
    && WellFormed(s)
    && AllGood(ps, u, ts) && StrictlyIncreasing(ts)
    && (|ts| > 0 && u in s ==> s[u][|s[u]| - 1].time < ts[0])
    && (order == AsSubmitted ==> AmountsOfSort(HistoryOf(s, u), k) && AllOfSort(ps, k))
  }

  /** The first submission of a ready run is accepted, and the rest of the run
      is ready on the store it leaves behind. */
  lemma RunStep(s: Store, u: int, ps: seq<Payload>, ts: seq<int>, order: AmountOrder, k: Sort)
    requires |ps| > 0 && RunReady(s, u, ps, ts, order, k)
    ensures SubmitWith(s, ps[0], order).1.Accepted?
    ensures RunReady(SubmitWith(s, ps[0], order).0, u, ps[1..], ts[1..], order, k)
    ensures |HistoryOf(SubmitWith(s, ps[0], order).0, u)| == |HistoryOf(s, u)| + 1
  {
    GoodTail(u, ps, ts, k);
    GoodSubmissionAccepted(s, u, ts[0], ps[0], order, k);
  }

  /** Submissions for one user with well-formed fields and strictly increasing
      times `ts` after the user's last stored time are all accepted, and the
      user's history grows by exactly their number. Under numeric order this
      holds for any amounts; as written, when the user's stored and submitted
      amounts are all text or all numbers. */
  lemma {:induction false} IncreasingSubmissionsAllAccepted(
    s: Store, u: int, ps: seq<Payload>, ts: seq<int>, order: AmountOrder, k: Sort)
    requires WellFormed(s)
    requires AllGood(ps, u, ts) && StrictlyIncreasing(ts)
    requires |ts| > 0 && u in s ==> s[u][|s[u]| - 1].time < ts[0]
    requires order == AsSubmitted ==> AmountsOfSort(HistoryOf(s, u), k) && AllOfSort(ps, k)
    ensures AllAccepted(Run(s, ps, order).1)
    ensures |HistoryOf(Run(s, ps, order).0, u)| == |HistoryOf(s, u)| + |ps|
    decreases |ps|
  {
    if |ps| > 0 {
      assert RunReady(s, u, ps, ts, order, k);
      RunStep(s, u, ps, ts, order, k);
      var step := SubmitWith(s, ps[0], order);
      IncreasingSubmissionsAllAccepted(step.0, u, ps[1..], ts[1..], order, k);
      RunCons(s, ps, order);
      AllAcceptedCons(step.1, Run(step.0, ps[1..], order).1);
    }
  }

  /** With numeric comparison, increasing submissions for one user are all
      accepted whatever mix of text, integer and number amounts they carry. */
  lemma IntendedSubmissionsAllAccepted(s: Store, u: int, ps: seq<Payload>, ts: seq<int>)
    requires WellFormed(s)
    requires AllGood(ps, u, ts) && StrictlyIncreasing(ts)
    requires |ts| > 0 && u in s ==> s[u][|s[u]| - 1].time < ts[0]
    ensures AllAccepted(Run(s, ps, Numeric).1)
    ensures |HistoryOf(Run(s, ps, Numeric).0, u)| == |HistoryOf(s, u)| + |ps|
  {
    IncreasingSubmissionsAllAccepted(s, u, ps, ts, Numeric, Text);
  }

}

=== FILE: events.dfy ===
/**
  Raw request values, accepted events and the per-user store of histories
  (the process-global `user_actions` dict, app/routes.py:4, made explicit).
 */
module Events {

  import opened Optional
  import opened Text

  /** One JSON field value as the request body delivers it. `Num` is a JSON
      number with a fraction; `Other` is null, an array or an object. */
  datatype Value = Int(i: int) | Num(x: real) | Str(s: string) | Other

  /** A request body: field name to raw value; extra fields are allowed. */
  type Payload = map<string, Value>

  /** Outcome of Python's `float(v)`. */
  datatype Conversion = Converted(x: real) | ValueError | TypeError | OverflowError

  /** 2^1024 - 2^970, written out in hexadecimal: half a unit in the last place
      above the largest finite double. Rounding to nearest, ties to even, takes
      every integer of at least this magnitude to 2^1024, so `float` refuses it. */
  const FloatOverflowBound: int := 0xFFFFFFFFFFFFFC00000000000000000000000000000000000000000000000000000000000000000000000000000000000000000000000000000000000000000000000000000000000000000000000000000000000000000000000000000000000000000000000000000000000000000000000000000000000000000000000000

  /** A JSON integer that `float` cannot convert. */
  predicate TooLargeForFloat(i: int)
  {
    i >= FloatOverflowBound || i <= -FloatOverflowBound
  }

  function ToFloat(v: Value): (c: Conversion)
    ensures c.TypeError? <==> v.Other?
    ensures c.OverflowError? <==> v.Int? && TooLargeForFloat(v.i)
    ensures c.ValueError? ==> v.Str? && ParseDecimal(v.s).None?
    ensures c.Converted? && v.Str? ==> ParseDecimal(v.s) == Some(c.x)
    ensures v.Int? && !TooLargeForFloat(v.i) ==> c == Converted(v.i as real)
    ensures v.Num? ==> c == Converted(v.x)
  {
    match v
    case Int(i) => if TooLargeForFloat(i) then OverflowError else Converted(i as real)
    case Num(x) => Converted(x)
    case Str(s) => (match ParseDecimal(s) case Some(x) => Converted(x) case None => ValueError)
    case Other => TypeError
  }

  datatype Kind = Deposit | Withdraw

  /** An accepted submission. `raw` is the amount exactly as submitted (rule 300
      compares it); `amount` is what `float` made of it (rules 1100 and 123). */
  datatype Event = Event(kind: Kind, amount: real, raw: Value, user: int, time: int)

  type History = seq<Event>

  type Store = map<int, History>

  /** The history stored for `u`; a user with none has the empty history. */
  function HistoryOf(s: Store, u: int): History
  {
    if u in s then s[u] else []
  }

  predicate TimesIncrease(h: History)
  {
    forall i, j :: 0 <= i < j < |h| ==> h[i].time < h[j].time
  }

  /** What validation guarantees of every event it lets through. */
  predicate Admissible(e: Event)
  {
    e.amount >= 0.0 && ToFloat(e.raw) == Converted(e.amount)
  }

  predicate HistoryWellFormed(u: int, h: History)
  {
    && |h| > 0
    && TimesIncrease(h)
    && forall i :: 0 <= i < |h| ==> h[i].user == u && Admissible(h[i])
  }

  /** The store invariant: every stored history is non-empty (so the `[-1]`
      lookup of app/routes.py:39 succeeds), strictly time-ordered, and holds
      only admissible events of its own user. */
  predicate WellFormed(s: Store)
  {
    forall u :: u in s ==> HistoryWellFormed(u, s[u])
  }

  /** app/routes.py:59-62: create the user's list on first use, then append. */
  function Append(s: Store, e: Event): (s': Store)
    ensures s'.Keys == s.Keys + {e.user}
    ensures HistoryOf(s', e.user) == HistoryOf(s, e.user) + [e]
    ensures forall u :: u != e.user ==> HistoryOf(s', u) == HistoryOf(s, u)
    ensures forall u :: u != e.user && u in s ==> s'[u] == s[u]
  {
    s[e.user := HistoryOf(s, e.user) + [e]]
  }

  /** Appending an admissible event of a later time keeps the store invariant. */
  lemma AppendPreservesWellFormed(s: Store, e: Event)
    requires WellFormed(s) && Admissible(e)
    requires e.user in s ==> s[e.user][|s[e.user]| - 1].time < e.time
    ensures WellFormed(Append(s, e))
  {
    var s' := Append(s, e);
    var h := HistoryOf(s, e.user);
    var h' := h + [e];
    assert s'[e.user] == h';
    forall i, j | 0 <= i < j < |h'|
      ensures h'[i].time < h'[j].time
    {
      if j == |h| {
        assert h == s[e.user];
        assert i == |h| - 1 || h[i].time < h[|h| - 1].time;
      }
    }
    assert HistoryWellFormed(e.user, h');
  }

}

=== FILE: optional.dfy ===
/** The conventional optional value, used wherever the model may have no answer. */
module Optional {

  datatype Option<+T> = None | Some(value: T)

}

=== FILE: rules.dfy ===
/**
  The four alert rules of app/routes.py:63-88, evaluated against a user's
  history after the new event has been appended (its last element).
 */
module Rules {

  import opened Optional
  import opened Text
  import opened Events

  const LargeWithdrawalCode := 1100
  const ConsecutiveWithdrawalsCode := 30
  const IncreasingDepositsCode := 300
  const DepositVelocityCode := 123

  /** The order in which the rules run, and so the order of the codes reported. */
  const CodeOrder: seq<int> := [LargeWithdrawalCode, ConsecutiveWithdrawalsCode, IncreasingDepositsCode, DepositVelocityCode]

  const LargeWithdrawalLimit := 100.0
  const VelocityWindow := 30
  const VelocityLimit := 200.0

  // ---------------------------------------------------------------------------
  // Code 1100: the event just appended is a withdrawal of more than 100.
  // ---------------------------------------------------------------------------

  predicate LargeWithdrawal(h: History)
    requires |h| > 0
  {
    h[|h| - 1].kind == Withdraw && h[|h| - 1].amount > LargeWithdrawalLimit
  }

  // ---------------------------------------------------------------------------
  // Code 30: at least three events, and the last three are all withdrawals.
  // ---------------------------------------------------------------------------

  predicate ThreeWithdrawals(h: History)
  {
    |h| >= 3 && forall e <- h[|h| - 3..] :: e.kind == Withdraw
  }

  /** Only the last three stored events decide code 30: anything before them,
      deposits included, is irrelevant. */
  lemma ThreeWithdrawalsLooksAtLastThree(earlier: History, h: History)
    requires |h| >= 3
    ensures ThreeWithdrawals(earlier + h) <==>
      h[|h| - 1].kind == Withdraw && h[|h| - 2].kind == Withdraw && h[|h| - 3].kind == Withdraw
  {
    var all := earlier + h;
    assert all[|all| - 3..] == h[|h| - 3..];
    assert h[|h| - 3..] == [h[|h| - 3], h[|h| - 2], h[|h| - 1]];
  }

  // ---------------------------------------------------------------------------
  // Code 300: the last three deposits have strictly increasing amounts.
  // ---------------------------------------------------------------------------

  /** The deposits of a history, in storage order (app/routes.py:76). */
  function Deposits(h: History): (d: History)
    ensures |d| <= |h|
  {
    if |h| == 0 then []
    else
      var rest := Deposits(h[..|h| - 1]);
      if h[|h| - 1].kind == Deposit then rest + [h[|h| - 1]] else rest
  }

  /** The deposit list holds exactly the deposits of the history. */
  lemma {:induction false} DepositsMembers(h: History)
    ensures forall e <- Deposits(h) :: e in h && e.kind == Deposit
    ensures forall e <- h :: e.kind == Deposit ==> e in Deposits(h)
    decreases |h|
  {
    if |h| > 0 {
      var h' := h[..|h| - 1];
      DepositsMembers(h');
      assert forall e <- h :: e in h' || e == h[|h| - 1];
    }
  }

  lemma DepositsOfAppend(h: History, e: Event)
    ensures Deposits(h + [e]) == Deposits(h) + (if e.kind == Deposit then [e] else [])
  {
    assert (h + [e])[..|h|] == h;
  }

  /** A history of deposits only is its own list of deposits. */
  lemma {:induction false} DepositsOfDepositsOnly(h: History)
    requires forall e <- h :: e.kind == Deposit
    ensures Deposits(h) == h
    decreases |h|
  {
    if |h| > 0 {
      DepositsOfDepositsOnly(h[..|h| - 1]);
      assert h == h[..|h| - 1] + [h[|h| - 1]];
    }
  }

  /** How the two amounts of a comparison are ordered: `AsSubmitted` compares
      the raw JSON values as app/routes.py:77 does, `Numeric` compares the
      parsed amounts. */
  datatype AmountOrder = AsSubmitted | Numeric

  function NumberOf(v: Value): Option<real>
  {
    match v
    case Int(i) => Some(i as real)
    case Num(x) => Some(x)
    case _ => None
  }

  /** Python's `a > b` on two raw values: ordinal text order between two
      strings, numeric order between two numbers, a TypeError (None) otherwise. */
  function RawGreater(a: Value, b: Value): (r: Option<bool>)
    ensures a.Str? && b.Str? ==> r == Some(StrLess(b.s, a.s))
    ensures NumberOf(a).Some? && NumberOf(b).Some? ==> r == Some(NumberOf(a).value > NumberOf(b).value)
    ensures r.None? <==> !(a.Str? && b.Str?) && (NumberOf(a).None? || NumberOf(b).None?)
  {
    if a.Str? && b.Str? then Some(StrLess(b.s, a.s))
    else if NumberOf(a).Some? && NumberOf(b).Some? then Some(NumberOf(a).value > NumberOf(b).value)
    else None
  }

  function Greater(a: Event, b: Event, order: AmountOrder): Option<bool>
  {
    match order
    case AsSubmitted => RawGreater(a.raw, b.raw)
    case Numeric => Some(a.amount > b.amount)
  }

  /** `d[-1] > d[-2] > d[-3]` over the deposits `d`, guarded by `len(d) >= 3`;
      Python's chained comparison stops at the first false link. None is the
      TypeError a comparison may raise. */
  function IncreasingDeposits(h: History, order: AmountOrder): (r: Option<bool>)
    ensures r.None? ==> order == AsSubmitted
    ensures r == Some(true) ==> |Deposits(h)| >= 3
  {
    var d := Deposits(h);
    if |d| < 3 then Some(false)
    else
      match Greater(d[|d| - 1], d[|d| - 2], order)
      case None => None
      case Some(false) => Some(false)
      case Some(true) => Greater(d[|d| - 2], d[|d| - 3], order)
  }

  /** The amounts of the last three deposits, oldest first. */
  ghost predicate LastThreeDeposits(h: History, x: Event, y: Event, z: Event)
  {
    var d := Deposits(h);
    |d| >= 3 && d[|d| - 3] == x && d[|d| - 2] == y && d[|d| - 1] == z
  }

  /** No position strictly between `lo` and `hi` holds a deposit. */
  predicate NoDepositBetween(h: History, lo: nat, hi: nat)
  {
    forall m :: lo < m < hi && m < |h| ==> h[m].kind != Deposit
  }

  /** The position of the last deposit of a history that has one: nothing
      after it is a deposit, and the deposits before it come first. */
  function LastDepositAt(h: History): (k: nat)
    requires |Deposits(h)| > 0
    ensures k < |h| && h[k].kind == Deposit
    ensures NoDepositBetween(h, k, |h|)
    ensures Deposits(h) == Deposits(h[..k]) + [h[k]]
    decreases |h|
  {
    var h' := h[..|h| - 1];
    var rest := Deposits(h');
    if h[|h| - 1].kind == Deposit then
      assert Deposits(h) == rest + [h[|h| - 1]];
      |h| - 1
    else
      assert Deposits(h) == rest;
      var k := LastDepositAt(h');
      assert h'[..k] == h[..k];
      assert forall m :: k < m < |h| - 1 ==> h[m] == h'[m];
      k
  }

  /** A deposit with no deposit after it is the last one. */
  lemma LastDepositUnique(h: History, k: nat)
    requires k < |h| && h[k].kind == Deposit && NoDepositBetween(h, k, |h|)
    ensures |Deposits(h)| > 0 && LastDepositAt(h) == k
  {
    DepositsMembers(h);
    assert h[k] in h;
    var k' := LastDepositAt(h);
    assert !(k' < k) && !(k < k');
  }

  /** Positions `i < j < k` hold deposits, and no other position after `i`
      does: they are the last three deposits, oldest first. */
  predicate LastThreeDepositsAt(h: History, i: nat, j: nat, k: nat)
  {
    && i < j < k < |h|
    && h[i].kind == Deposit && h[j].kind == Deposit && h[k].kind == Deposit
    && NoDepositBetween(h, i, j) && NoDepositBetween(h, j, k) && NoDepositBetween(h, k, |h|)
  }

  /** The deposits of the first `n` events, when the last of them is at `k`. */
  lemma DepositsBeforeLast(h: History, k: nat, n: nat)
    requires k < n <= |h| && h[k].kind == Deposit && NoDepositBetween(h, k, n)
    ensures Deposits(h[..n]) == Deposits(h[..k]) + [h[k]]
  {
    var g := h[..n];
    assert NoDepositBetween(g, k, |g|) by {
      assert forall m :: k < m < |g| ==> g[m] == h[m];
    }
    LastDepositUnique(g, k);
    assert g[..k] == h[..k];
  }

  /** The deposit list ends with the events at the last three deposit positions. */
  lemma DepositsEndAt(h: History, i: nat, j: nat, k: nat)
    requires LastThreeDepositsAt(h, i, j, k)
    ensures Deposits(h) == Deposits(h[..i]) + [h[i], h[j], h[k]]
  {
    var dj, dk := Deposits(h[..j]), Deposits(h[..k]);
    var di := Deposits(h[..i]);
    assert h[..|h|] == h;
    DepositsBeforeLast(h, k, |h|);
    DepositsBeforeLast(h, j, k);
    DepositsBeforeLast(h, i, j);
    assert di + [h[i]] + [h[j]] + [h[k]] == di + [h[i], h[j], h[k]];
  }

  /** A history with at least three deposits has last three deposit positions. */
  lemma LastThreePositions(h: History) returns (i: nat, j: nat, k: nat)
    requires |Deposits(h)| >= 3
    ensures LastThreeDepositsAt(h, i, j, k)
  {
    k := LastDepositAt(h);
    var hk := h[..k];
    j := LastDepositAt(hk);
    var hj := hk[..j];
    i := LastDepositAt(hj);
    assert NoDepositBetween(h, j, k) by {
      assert forall m :: j < m < k ==> h[m] == hk[m];
    }
    assert NoDepositBetween(h, i, j) by {
      assert forall m :: i < m < j ==> h[m] == hj[m];
    }
  }

  /** The last three deposits, read by position: `x`, `y`, `z` are the last
      three deposits exactly when they sit at three deposit positions after
      which the history holds no other deposit. */
  lemma LastThreeDepositsByIndex(h: History, x: Event, y: Event, z: Event)
    ensures LastThreeDeposits(h, x, y, z) <==>
      exists i: nat, j: nat, k: nat :: LastThreeDepositsAt(h, i, j, k) && h[i] == x && h[j] == y && h[k] == z
  {
    if LastThreeDeposits(h, x, y, z) {
      var i, j, k := LastThreePositions(h);
      DepositsEndAt(h, i, j, k);
    }
    if exists i: nat, j: nat, k: nat :: LastThreeDepositsAt(h, i, j, k) && h[i] == x && h[j] == y && h[k] == z {
      var i: nat, j: nat, k: nat :| LastThreeDepositsAt(h, i, j, k) && h[i] == x && h[j] == y && h[k] == z;
      DepositsEndAt(h, i, j, k);
    }
  }

  /** Under numeric order rule 300 never raises, and fires exactly when the last
      three deposits' amounts strictly increase. */
  lemma IncreasingDepositsNumeric(h: History)
    ensures IncreasingDeposits(h, Numeric).Some?
    ensures IncreasingDeposits(h, Numeric) == Some(true) <==>
      exists x, y, z :: LastThreeDeposits(h, x, y, z) && x.amount < y.amount < z.amount
  {
    var d := Deposits(h);
    if |d| >= 3 {
      assert LastThreeDeposits(h, d[|d| - 3], d[|d| - 2], d[|d| - 1]);
    }
  }

  /** As written, with text amounts rule 300 compares them as strings. */
  lemma IncreasingDepositsText(h: History)
    requires forall e <- Deposits(h) :: e.raw.Str?
    ensures IncreasingDeposits(h, AsSubmitted).Some?
    ensures IncreasingDeposits(h, AsSubmitted) == Some(true) <==>
      exists x, y, z :: LastThreeDeposits(h, x, y, z) && StrLess(x.raw.s, y.raw.s) && StrLess(y.raw.s, z.raw.s)
  {
    var d := Deposits(h);
    if |d| >= 3 {
      assert d[|d| - 1] in d && d[|d| - 2] in d && d[|d| - 3] in d;
      assert LastThreeDeposits(h, d[|d| - 3], d[|d| - 2], d[|d| - 1]);
    }
  }

  /** As written, rule 300 fires exactly when both links of the chain hold
      under Python's `>` on the raw values, and raises exactly when the first
      link raises, or holds and the second raises. */
  lemma IncreasingDepositsRaw(h: History)
    ensures IncreasingDeposits(h, AsSubmitted) == Some(true) <==>
      exists x, y, z :: LastThreeDeposits(h, x, y, z)
        && RawGreater(z.raw, y.raw) == Some(true) && RawGreater(y.raw, x.raw) == Some(true)
    ensures IncreasingDeposits(h, AsSubmitted).None? <==>
      exists x, y, z :: LastThreeDeposits(h, x, y, z)
        && (RawGreater(z.raw, y.raw).None? || (RawGreater(z.raw, y.raw) == Some(true) && RawGreater(y.raw, x.raw).None?))
  {
    var d := Deposits(h);
    if |d| >= 3 {
      assert LastThreeDeposits(h, d[|d| - 3], d[|d| - 2], d[|d| - 1]);
    }
  }

  /** A deposit whose raw value is a JSON number carrying its own value as
      amount, as `float` gives it. */
  predicate NumberDeposit(e: Event)
  {
    NumberOf(e.raw) == Some(e.amount)
  }

  /** With every deposit sent as a number, rule 300 as written agrees with
      the numeric reading. */
  lemma NumberDepositsCompareNumerically(h: History)
    requires forall e <- Deposits(h) :: NumberDeposit(e)
    ensures IncreasingDeposits(h, AsSubmitted) == IncreasingDeposits(h, Numeric)
  {
    var d := Deposits(h);
    if |d| >= 3 {
      assert d[|d| - 1] in d && d[|d| - 2] in d && d[|d| - 3] in d;
    }
  }

  /** A withdrawal leaves the deposits, and so rule 300's verdict, as they
      were: code 300 can be reported again on a withdrawal. */
  lemma WithdrawalKeepsIncreasingDeposits(h: History, e: Event, order: AmountOrder)
    requires e.kind == Withdraw
    ensures IncreasingDeposits(h + [e], order) == IncreasingDeposits(h, order)
  {
    DepositsOfAppend(h, e);
  }

  // ---------------------------------------------------------------------------
  // Code 123: deposits no more than 30 time units before the current event
  // add up to more than 200.
  // ---------------------------------------------------------------------------

  predicate InWindow(e: Event, now: int)
  {
    now - e.time <= VelocityWindow
  }

  /** app/routes.py:82-85: deposits within the window, in storage order. */
  function RecentDeposits(h: History, now: int): (d: History)
    ensures forall e <- d :: e in h && e.kind == Deposit && InWindow(e, now)
    ensures forall i :: 0 <= i < |h| && h[i].kind == Deposit && InWindow(h[i], now) ==> h[i] in d
  {
    if |h| == 0 then []
    else
      var rest := RecentDeposits(h[..|h| - 1], now);
      var e := h[|h| - 1];
      assert forall i :: 0 <= i < |h| - 1 ==> h[i] == h[..|h| - 1][i];
      if e.kind == Deposit && InWindow(e, now) then rest + [e] else rest
  }

  lemma RecentDepositsOfAppend(h: History, e: Event, now: int)
    ensures RecentDeposits(h + [e], now)
         == RecentDeposits(h, now) + (if e.kind == Deposit && InWindow(e, now) then [e] else [])
  {
    assert (h + [e])[..|h|] == h;
  }

  /** When every event is a deposit within the window, the window holds the
      whole history. */
  lemma {:induction false} RecentDepositsOfRecentDepositsOnly(h: History, now: int)
    requires forall e <- h :: e.kind == Deposit && InWindow(e, now)
    ensures RecentDeposits(h, now) == h
    decreases |h|
  {
    if |h| > 0 {
      RecentDepositsOfRecentDepositsOnly(h[..|h| - 1], now);
      assert h == h[..|h| - 1] + [h[|h| - 1]];
    }
  }

  /** A history without deposits has no recent deposits either. */
  lemma {:induction false} WithdrawalsOnlyHaveNoDeposits(h: History, now: int)
    requires forall e <- h :: e.kind == Withdraw
    ensures Deposits(h) == [] && RecentDeposits(h, now) == []
    decreases |h|
  {
    if |h| > 0 {
      WithdrawalsOnlyHaveNoDeposits(h[..|h| - 1], now);
      assert h[|h| - 1] in h;
    }
  }

  function Total(h: History): real
  {
    if |h| == 0 then 0.0 else Total(h[..|h| - 1]) + h[|h| - 1].amount
  }

  lemma TotalOfAppend(h: History, e: Event)
    ensures Total(h + [e]) == Total(h) + e.amount
  {
    assert (h + [e])[..|h|] == h;
  }

  /** What one position adds to rule 123's sum. */
  function WindowShare(e: Event, now: int): real
  {
    if e.kind == Deposit && InWindow(e, now) then e.amount else 0.0
  }

  /** The shares of the first `n` positions, added up position by position. */
  function WindowSum(h: History, now: int, n: nat): real
    requires n <= |h|
  {
    if n == 0 then 0.0 else WindowSum(h, now, n - 1) + WindowShare(h[n - 1], now)
  }

  lemma {:induction false} WindowSumOfPrefix(h: History, now: int, m: nat, n: nat)
    requires n <= m <= |h|
    ensures WindowSum(h[..m], now, n) == WindowSum(h, now, n)
    decreases n
  {
    if n > 0 {
      WindowSumOfPrefix(h, now, m, n - 1);
      assert h[..m][n - 1] == h[n - 1];
    }
  }

  /** Rule 123's total is the amount of every in-window deposit, each counted
      once: the sum over positions of the history. */
  lemma {:induction false} TotalOfWindowIsWindowSum(h: History, now: int)
    ensures Total(RecentDeposits(h, now)) == WindowSum(h, now, |h|)
    decreases |h|
  {
    if |h| > 0 {
      var h' := h[..|h| - 1];
      var e := h[|h| - 1];
      var rest := RecentDeposits(h', now);
      TotalOfWindowIsWindowSum(h', now);
      WindowSumOfPrefix(h, now, |h| - 1, |h| - 1);
      assert WindowSum(h, now, |h|) == WindowSum(h', now, |h'|) + WindowShare(e, now);
      if e.kind == Deposit && InWindow(e, now) {
        assert RecentDeposits(h, now) == rest + [e];
        TotalOfAppend(rest, e);
      } else {
        assert RecentDeposits(h, now) == rest;
      }
    }
  }

  predicate DepositVelocity(h: History)
    requires |h| > 0
  {
    Total(RecentDeposits(h, h[|h| - 1].time)) > VelocityLimit
  }

  /** The first position whose event lies within the window. */
  function WindowStart(h: History, now: int): (k: nat)
    ensures k <= |h|
    ensures k < |h| ==> InWindow(h[k], now)
    ensures forall i :: 0 <= i < k ==> !InWindow(h[i], now)
  {
    if |h| == 0 then 0
    else if InWindow(h[0], now) then 0
    else 1 + WindowStart(h[1..], now)
  }

  /** Events before position `k` lie outside the window. */
  predicate StaleBefore(h: History, now: int, k: nat)
  {
    forall i :: 0 <= i < k && i < |h| ==> !InWindow(h[i], now)
  }

  /** Events from position `k` on lie inside the window. */
  predicate FreshFrom(h: History, now: int, k: nat)
  {
    forall i :: k <= i < |h| ==> InWindow(h[i], now)
  }

  /** Dropping the last event keeps the split, moving it down when the split
      was at the very end. */
  lemma SplitOfPrefix(h: History, now: int, k: nat)
    requires 0 < |h| && k <= |h| && StaleBefore(h, now, k) && FreshFrom(h, now, k)
    ensures k == |h| ==> !InWindow(h[|h| - 1], now) && StaleBefore(h[..|h| - 1], now, k - 1)
    ensures k < |h| ==> InWindow(h[|h| - 1], now) && StaleBefore(h[..|h| - 1], now, k)
    ensures FreshFrom(h[..|h| - 1], now, if k == |h| then k - 1 else k)
  {
  }

  /** When the history splits into old events followed by recent ones, the
      window's deposits are exactly the deposits of the recent part. */
  lemma {:induction false} RecentDepositsOfSplit(h: History, now: int, k: nat)
    requires k <= |h| && StaleBefore(h, now, k) && FreshFrom(h, now, k)
    ensures RecentDeposits(h, now) == Deposits(h[k..])
    decreases |h|
  {
    if |h| > 0 {
      var h' := h[..|h| - 1];
      SplitOfPrefix(h, now, k);
      if |h| == k {
        RecentDepositsOfSplit(h', now, k - 1);
        assert h'[k - 1..] == [];
        assert h[k..] == [];
      } else {
        RecentDepositsOfSplit(h', now, k);
        assert h[k..] == h'[k..] + [h[|h| - 1]];
        DepositsOfAppend(h'[k..], h[|h| - 1]);
      }
    }
  }

  /** With strictly increasing times the 30-unit window is a suffix of the
      history that contains the current event: rule 123 sums the deposits of
      that suffix, and nothing older matters. */
  lemma VelocityWindowIsSuffix(h: History)
    requires |h| > 0 && TimesIncrease(h)
    ensures WindowStart(h, h[|h| - 1].time) < |h|
    ensures RecentDeposits(h, h[|h| - 1].time) == Deposits(h[WindowStart(h, h[|h| - 1].time)..])
  {
    var now := h[|h| - 1].time;
    var k := WindowStart(h, now);
    assert InWindow(h[|h| - 1], now);
    forall i | k <= i < |h|
      ensures InWindow(h[i], now)
    {
      assert i == k || h[k].time < h[i].time;
    }
    assert StaleBefore(h, now, k) && FreshFrom(h, now, k);
    RecentDepositsOfSplit(h, now, k);
  }

  lemma {:induction false} TotalNonNegative(h: History)
    requires forall e <- h :: e.amount >= 0.0
    ensures Total(h) >= 0.0
    decreases |h|
  {
    if |h| > 0 {
      TotalNonNegative(h[..|h| - 1]);
    }
  }

  /** The current deposit always counts toward its own window: on its own a
      deposit of more than 200 raises code 123. */
  lemma LargeDepositAloneFiresVelocity(h: History)
    requires |h| > 0 && h[|h| - 1].kind == Deposit && h[|h| - 1].amount > VelocityLimit
    requires forall e <- h :: e.amount >= 0.0
    ensures DepositVelocity(h)
  {
    var now := h[|h| - 1].time;
    var rest := RecentDeposits(h[..|h| - 1], now);
    assert RecentDeposits(h, now) == rest + [h[|h| - 1]];
    TotalNonNegative(rest);
    assert (rest + [h[|h| - 1]])[..|rest|] == rest;
  }

  // ---------------------------------------------------------------------------
  // Assembling the codes.
  // ---------------------------------------------------------------------------

  /** `[code]` when its rule fired, nothing otherwise. */
  function CodeIf(fired: bool, code: int): seq<int>
  {
    if fired then [code] else []
  }

  /** The codes `mask` picks out of the rule order, keeping that order. */
  function Picked(mask: seq<bool>): seq<int>
    requires |mask| == |CodeOrder|
  {
    CodeIf(mask[0], CodeOrder[0]) + CodeIf(mask[1], CodeOrder[1])
    + CodeIf(mask[2], CodeOrder[2]) + CodeIf(mask[3], CodeOrder[3])
  }

  /** A code's position in the rule order; |CodeOrder| for any other number. */
  function Rank(c: int): (r: nat)
    ensures r <= |CodeOrder|
    ensures r < |CodeOrder| <==> c in CodeOrder
    ensures r < |CodeOrder| ==> CodeOrder[r] == c
  {
    if c == CodeOrder[0] then 0
    else if c == CodeOrder[1] then 1
    else if c == CodeOrder[2] then 2
    else if c == CodeOrder[3] then 3
    else |CodeOrder|
  }

  /** Every entry is a rule's code, and each comes before every code of a
      later rule. */
  ghost predicate InCodeOrder(cs: seq<int>)
  {
    && (forall i :: 0 <= i < |cs| ==> cs[i] in CodeOrder)
    && (forall i, j :: 0 <= i < j < |cs| ==> Rank(cs[i]) < Rank(cs[j]))
  }

  predicate NoRepeats(cs: seq<int>)
  {
    forall i, j :: 0 <= i < j < |cs| ==> cs[i] != cs[j]
  }

  lemma NoRepeatsAppend(a: seq<int>, b: seq<int>)
    requires NoRepeats(a) && NoRepeats(b) && forall x <- a :: x !in b
    ensures NoRepeats(a + b)
  {
    forall i, j | 0 <= i < j < |a + b| ensures (a + b)[i] != (a + b)[j] {
      if i < |a| && j >= |a| {
        assert (a + b)[i] in a && (a + b)[j] == b[j - |a|];
      }
    }
  }

  /** A code is picked exactly when its rule fired. */
  lemma PickedMembers(mask: seq<bool>)
    requires |mask| == |CodeOrder|
    ensures forall i :: 0 <= i < |CodeOrder| ==> (CodeOrder[i] in Picked(mask) <==> mask[i])
  {
  }

  /** No code is picked twice: the four codes are distinct. */
  lemma PickedNoRepeats(mask: seq<bool>)
    requires |mask| == |CodeOrder|
    ensures NoRepeats(Picked(mask))
  {
    var a, b := CodeIf(mask[0], CodeOrder[0]), CodeIf(mask[1], CodeOrder[1]);
    var c, d := CodeIf(mask[2], CodeOrder[2]), CodeIf(mask[3], CodeOrder[3]);
    NoRepeatsAppend(a, b);
    NoRepeatsAppend(a + b, c);
    NoRepeatsAppend(a + b + c, d);
  }

  /** Every entry's rank lies in [lo, hi). */
  ghost predicate RanksIn(cs: seq<int>, lo: nat, hi: nat)
  {
    forall x <- cs :: lo <= Rank(x) < hi
  }

  lemma InCodeOrderAppend(a: seq<int>, b: seq<int>, lo: nat, k: nat, hi: nat)
    requires InCodeOrder(a) && InCodeOrder(b)
    requires lo <= k <= hi && RanksIn(a, lo, k) && RanksIn(b, k, hi)
    ensures InCodeOrder(a + b) && RanksIn(a + b, lo, hi)
  {
    assert forall x <- a + b :: x in a || x in b;
    forall i, j | 0 <= i < j < |a + b| ensures Rank((a + b)[i]) < Rank((a + b)[j]) {
      if i < |a| && j >= |a| {
        assert (a + b)[i] in a && (a + b)[j] in b;
      }
    }
  }

  lemma CodeIfRanked(fired: bool, k: nat)
    requires k < |CodeOrder|
    ensures InCodeOrder(CodeIf(fired, CodeOrder[k]))
    ensures RanksIn(CodeIf(fired, CodeOrder[k]), k, k + 1)
  {
  }

  /** The picked codes keep the rule order. */
  lemma PickedInCodeOrder(mask: seq<bool>)
    requires |mask| == |CodeOrder|
    ensures InCodeOrder(Picked(mask))
  {
    var a, b := CodeIf(mask[0], CodeOrder[0]), CodeIf(mask[1], CodeOrder[1]);
    var c, d := CodeIf(mask[2], CodeOrder[2]), CodeIf(mask[3], CodeOrder[3]);
    CodeIfRanked(mask[0], 0);
    CodeIfRanked(mask[1], 1);
    CodeIfRanked(mask[2], 2);
    CodeIfRanked(mask[3], 3);
    InCodeOrderAppend(a, b, 0, 1, 2);
    InCodeOrderAppend(a + b, c, 0, 2, 3);
    InCodeOrderAppend(a + b + c, d, 0, 3, 4);
  }

  /** The codes of the rules that fired, `fired` giving each rule's verdict in
      rule order. */
  function Assemble(fired: seq<bool>): (cs: seq<int>)
    requires |fired| == |CodeOrder|
    ensures forall i :: 0 <= i < |CodeOrder| ==> (CodeOrder[i] in cs <==> fired[i])
    ensures InCodeOrder(cs)
    ensures NoRepeats(cs)
    ensures |cs| == 0 <==> forall i :: 0 <= i < |fired| ==> !fired[i]
  {
    PickedMembers(fired);
    PickedNoRepeats(fired);
    PickedInCodeOrder(fired);
    Picked(fired)
  }

  /** The response codes, in rule order, or None when rule 300's comparison
      raises (app/routes.py:63-88). */
  function Evaluate(h: History, order: AmountOrder): (r: Option<seq<int>>)
    requires |h| > 0
    ensures r.None? <==> IncreasingDeposits(h, order).None?
    ensures r.Some? ==>
      && (LargeWithdrawalCode in r.value <==> LargeWithdrawal(h))
      && (ConsecutiveWithdrawalsCode in r.value <==> ThreeWithdrawals(h))
      && (IncreasingDepositsCode in r.value <==> IncreasingDeposits(h, order) == Some(true))
      && (DepositVelocityCode in r.value <==> DepositVelocity(h))
    ensures r.Some? ==> InCodeOrder(r.value)
    ensures r.Some? ==> NoRepeats(r.value)
  {
    match IncreasingDeposits(h, order)
    case None => None
    case Some(increasing) =>
      var fired := [LargeWithdrawal(h), ThreeWithdrawals(h), increasing, DepositVelocity(h)];
      var cs := Assemble(fired);
      assert CodeOrder[0] in cs <==> fired[0];
      assert CodeOrder[1] in cs <==> fired[1];
      assert CodeOrder[2] in cs <==> fired[2];
      assert CodeOrder[3] in cs <==> fired[3];
      Some(cs)
  }

}

=== FILE: scenarios.dfy ===
/**
  The scenarios of tests/test_event.py, replayed on the model, and the inputs
  that show where the handler as written departs from its intended behaviour.
  The tests share one process-wide store but use a distinct user each, so each
  scenario starts from any store in which its user has no history yet
  (`Engine.AnswerDependsOnlyOnOwnHistory` says why nothing else matters).
 */
module Scenarios {

  import opened Optional
  import opened Text
  import opened Events
  import opened Validation
  import opened Rules
  import opened Engine

  // ---------------------------------------------------------------------------
  // Request bodies and the amounts they carry.
  // ---------------------------------------------------------------------------

  /** A request body with all four fields. */
  function Request(kind: string, amount: Value, user: int, time: int): Payload
  {
    map["type" := Str(kind), "amount" := amount, "user_id" := Int(user), "time" := Int(time)]
  }

  /** A body as the tests send it: the amount is a JSON string. */
  function Body(kind: string, amount: string, user: int, time: int): Payload
  {
    Request(kind, Str(amount), user, time)
  }

  function KindNamed(kind: string): Kind
  {
    if kind == "deposit" then Deposit else Withdraw
  }

  /** `float` reads a whole amount written with two zero decimals exactly. */
  lemma ReadsWhole(w: nat, digits: string, text: string)
    requires ShowNat(w) == digits && text == digits + ".00"
    ensures ToFloat(Str(text)) == Converted(w as real)
  {
    var m: nat := 100 * w;
    assert m / 100 == w && m % 100 / 10 == 0 && m % 10 == 0;
    assert DigitChar(0) == '0';
    assert ShowCents(m) == ShowNat(w) + "." + [DigitChar(0), DigitChar(0)];
    assert digits + ".00" == digits + "." + ['0', '0'];
    ParseShowCents(m);
  }

  // The amounts the scenarios send, each read on its own.

  lemma Reads3() ensures ToFloat(Str("3.00")) == Converted(3.0) { ReadsWhole(3, "3", "3.00"); }
  lemma Reads8() ensures ToFloat(Str("8.00")) == Converted(8.0) { ReadsWhole(8, "8", "8.00"); }
  lemma Reads9() ensures ToFloat(Str("9.00")) == Converted(9.0) { ReadsWhole(9, "9", "9.00"); }
  lemma Reads10() ensures ToFloat(Str("10.00")) == Converted(10.0) { ReadsWhole(10, "10", "10.00"); }
  lemma Reads20() ensures ToFloat(Str("20.00")) == Converted(20.0) { ReadsWhole(20, "20", "20.00"); }
  lemma Reads30() ensures ToFloat(Str("30.00")) == Converted(30.0) { ReadsWhole(30, "30", "30.00"); }
  lemma Reads50() ensures ToFloat(Str("50.00")) == Converted(50.0) { ReadsWhole(50, "50", "50.00"); }
  lemma Reads60() ensures ToFloat(Str("60.00")) == Converted(60.0) { ReadsWhole(60, "60", "60.00"); }
  lemma Reads70() ensures ToFloat(Str("70.00")) == Converted(70.0) { ReadsWhole(70, "70", "70.00"); }
  lemma Reads100() ensures ToFloat(Str("100.00")) == Converted(100.0) { ReadsWhole(100, "100", "100.00"); }
  lemma Reads120() ensures ToFloat(Str("120.00")) == Converted(120.0) { ReadsWhole(120, "120", "120.00"); }
  lemma Reads80() ensures ToFloat(Str("80.00")) == Converted(80.0) { ReadsWhole(80, "80", "80.00"); }
  lemma Reads150() ensures ToFloat(Str("150.00")) == Converted(150.0) { ReadsWhole(150, "150", "150.00"); }

  /** `float` reads a negative whole amount written with two zero decimals. */
  lemma ReadsNegatedWhole(w: nat, digits: string, text: string)
    requires w > 0 && ShowNat(w) == digits && text == "-" + (digits + ".00")
    ensures ToFloat(Str(text)) == Converted(-(w as real))
  {
    var m: nat := 100 * w;
    assert m / 100 == w && m % 100 / 10 == 0 && m % 10 == 0;
    var c: int := -(m as int);
    assert DigitChar(0) == '0';
    assert ShowCents(c) == "-" + (ShowNat(w) + "." + [DigitChar(0), DigitChar(0)]);
    assert digits + ".00" == digits + "." + ['0', '0'];
    ParseShowCents(c);
  }

  /** `float` reads an amount spelled with its two decimals. */
  lemma ReadsSpelled(c: nat, digits: string, text: string)
    requires ShowNat(c / 100) == digits
    requires text == digits + "." + [DigitChar(c % 100 / 10), DigitChar(c % 10)]
    ensures ToFloat(Str(text)) == Converted(c as real / 100.0)
  {
    ParseShowCents(c);
  }

  lemma ShowsTenNines()
    ensures ShowNat(9999999999) == "9999999999"
  {
    assert ShowNat(999) == "999";
    assert ShowNat(99999) == "99999";
    assert ShowNat(9999999) == "9999999";
    assert ShowNat(999999999) == "999999999";
  }

  lemma ReadsLarge()
    ensures ToFloat(Str("9999999999.99")) == Converted(9999999999.99)
  {
    ShowsTenNines();
    ReadsSpelled(999999999999, "9999999999", "9999999999.99");
  }

  lemma ReadsNegative()
    ensures ToFloat(Str("-100.00")) == Converted(-100.0)
  {
    ReadsNegatedWhole(100, "100", "-100.00");
  }

  lemma RejectsWord()
    ensures ToFloat(Str("invalid")) == ValueError
  {
  }

  // ---------------------------------------------------------------------------
  // One submission, in general.
  // ---------------------------------------------------------------------------

  /** A body with a known type, a readable non-negative amount and a time after
      the user's last one validates to exactly that event. */
  lemma BodyAccepted(s: Store, kind: string, amount: Value, x: real, user: int, time: int)
    requires kind == "deposit" || kind == "withdraw"
    requires ToFloat(amount) == Converted(x) && x >= 0.0
    requires user in s ==> |s[user]| > 0 && s[user][|s[user]| - 1].time < time
    ensures Validate(s, Request(kind, amount, user, time)) == Valid(Event(KindNamed(kind), x, amount, user, time))
  {
    ValidateChecksInOrder(s, Request(kind, amount, user, time));
  }

  /** Such a body is stored, whatever the rules then say. */
  lemma Stores(s: Store, kind: string, amount: Value, x: real, user: int, time: int, order: AmountOrder)
    requires kind == "deposit" || kind == "withdraw"
    requires ToFloat(amount) == Converted(x) && x >= 0.0
    requires user in s ==> |s[user]| > 0 && s[user][|s[user]| - 1].time < time
    ensures SubmitWith(s, Request(kind, amount, user, time), order).0
         == Append(s, Event(KindNamed(kind), x, amount, user, time))
  {
    BodyAccepted(s, kind, amount, x, user, time);
  }

  /** The codes of the rules that fired, as a set. */
  function Fired(w: bool, c: bool, i: bool, v: bool): set<int>
  {
    (if w then {LargeWithdrawalCode} else {}) + (if c then {ConsecutiveWithdrawalsCode} else {})
    + (if i then {IncreasingDepositsCode} else {}) + (if v then {DepositVelocityCode} else {})
  }

  /** A 200 response for `user` whose alert codes are exactly `codes` (they
      come in rule order without repeats, so this fixes the list). */
  predicate Reports(r: Response, user: int, codes: set<int>)
  {
    && r.Accepted? && r.user == user && r.alert == (codes != {})
    && (LargeWithdrawalCode in r.codes <==> LargeWithdrawalCode in codes)
    && (ConsecutiveWithdrawalsCode in r.codes <==> ConsecutiveWithdrawalsCode in codes)
    && (IncreasingDepositsCode in r.codes <==> IncreasingDepositsCode in codes)
    && (DepositVelocityCode in r.codes <==> DepositVelocityCode in codes)
  }

  /** A submission that validates to `ev` is answered with the codes the
      rules give once `ev` is appended. */
  lemma AnsweredWith(s: Store, p: Payload, ev: Event, order: AmountOrder, codes: seq<int>)
    requires Validate(s, p) == Valid(ev)
    requires Evaluate(HistoryOf(s, ev.user) + [ev], order) == Some(codes)
    ensures SubmitWith(s, p, order).1 == Accepted(|codes| > 0, codes, ev.user)
  {
  }

  lemma FiredMembers(w: bool, c: bool, i: bool, v: bool)
    ensures LargeWithdrawalCode in Fired(w, c, i, v) <==> w
    ensures ConsecutiveWithdrawalsCode in Fired(w, c, i, v) <==> c
    ensures IncreasingDepositsCode in Fired(w, c, i, v) <==> i
    ensures DepositVelocityCode in Fired(w, c, i, v) <==> v
    ensures Fired(w, c, i, v) == {} <==> !w && !c && !i && !v
  {
    if !w && !c && !i && !v {
      assert Fired(w, c, i, v) == {};
    }
  }

  /** The assembled codes of four verdicts, rule by rule. */
  lemma AssembledMembers(w: bool, c: bool, i: bool, v: bool)
    ensures var cs := Assemble([w, c, i, v]);
      && (LargeWithdrawalCode in cs <==> w) && (ConsecutiveWithdrawalsCode in cs <==> c)
      && (IncreasingDepositsCode in cs <==> i) && (DepositVelocityCode in cs <==> v)
      && (|cs| > 0 <==> w || c || i || v)
  {
    var fired := [w, c, i, v];
    var cs := Assemble(fired);
    assert CodeOrder[0] in cs <==> fired[0];
    assert CodeOrder[1] in cs <==> fired[1];
    assert CodeOrder[2] in cs <==> fired[2];
    assert CodeOrder[3] in cs <==> fired[3];
    assert |cs| == 0 <==> !fired[0] && !fired[1] && !fired[2] && !fired[3];
  }

  /** A response carrying the assembled codes reports exactly the rules that
      fired. */
  lemma ReportsFired(r: Response, user: int, w: bool, c: bool, i: bool, v: bool)
    requires r.Accepted? && r.user == user && (r.alert <==> |r.codes| > 0)
    requires r.codes == Assemble([w, c, i, v])
    ensures Reports(r, user, Fired(w, c, i, v))
  {
    AssembledMembers(w, c, i, v);
    FiredMembers(w, c, i, v);
  }

  /** Four verdicts on a history give the codes assembled from them. */
  lemma EvaluatesTo(h: History, order: AmountOrder, w: bool, c: bool, i: bool, v: bool)
    requires |h| > 0
    requires LargeWithdrawal(h) == w && ThreeWithdrawals(h) == c
    requires IncreasingDeposits(h, order) == Some(i) && DepositVelocity(h) == v
    ensures Evaluate(h, order) == Some(Assemble([w, c, i, v]))
  {
  }

  /** ... and answered with the codes of the rules that fire on the updated
      history. */
  lemma Answers(s: Store, kind: string, amount: Value, x: real, user: int, time: int, order: AmountOrder,
                h: History, w: bool, c: bool, i: bool, v: bool)
    requires kind == "deposit" || kind == "withdraw"
    requires ToFloat(amount) == Converted(x) && x >= 0.0
    requires user in s ==> |s[user]| > 0 && s[user][|s[user]| - 1].time < time
    requires HistoryOf(s, user) + [Event(KindNamed(kind), x, amount, user, time)] == h
    requires LargeWithdrawal(h) == w && ThreeWithdrawals(h) == c
    requires IncreasingDeposits(h, order) == Some(i) && DepositVelocity(h) == v
    ensures Reports(SubmitWith(s, Request(kind, amount, user, time), order).1, user, Fired(w, c, i, v))
  {
    var p := Request(kind, amount, user, time);
    BodyAccepted(s, kind, amount, x, user, time);
    EvaluatesTo(h, order, w, c, i, v);
    AnsweredWith(s, p, Event(KindNamed(kind), x, amount, user, time), order, Assemble([w, c, i, v]));
    ReportsFired(SubmitWith(s, p, order).1, user, w, c, i, v);
  }

  /** ... or, when rule 300's comparison raises, stored and answered with a 500. */
  lemma Crashes(s: Store, kind: string, amount: Value, x: real, user: int, time: int, order: AmountOrder,
                h: History)
    requires kind == "deposit" || kind == "withdraw"
    requires ToFloat(amount) == Converted(x) && x >= 0.0
    requires user in s ==> |s[user]| > 0 && s[user][|s[user]| - 1].time < time
    requires HistoryOf(s, user) + [Event(KindNamed(kind), x, amount, user, time)] == h
    requires IncreasingDeposits(h, order).None?
    ensures SubmitWith(s, Request(kind, amount, user, time), order)
         == (Append(s, Event(KindNamed(kind), x, amount, user, time)), Fault)
  {
    BodyAccepted(s, kind, amount, x, user, time);
  }

  // ---------------------------------------------------------------------------
  // The rules on the scenarios' histories, for any events of the right shape.
  // ---------------------------------------------------------------------------

  /** A user's first event: 1100 when it is a withdrawal over 100, 123 when it
      is a deposit over 200, and neither 30 nor 300. */
  lemma FirstEventVerdicts(e: Event, order: AmountOrder)
    ensures LargeWithdrawal([e]) == (e.kind == Withdraw && e.amount > LargeWithdrawalLimit)
    ensures !ThreeWithdrawals([e]) && IncreasingDeposits([e], order) == Some(false)
    ensures DepositVelocity([e]) == (e.kind == Deposit && e.amount > VelocityLimit)
  {
    DepositsOfAppend([], e);
    RecentDepositsOfAppend([], e, e.time);
    TotalOfAppend([], e);
    assert [e] == [] + [e];
  }

  /** Three withdrawals: 30 fires, 300 and 123 see no deposit. */
  lemma ThreeWithdrawalsVerdicts(e1: Event, e2: Event, e3: Event, order: AmountOrder)
    requires e1.kind == Withdraw && e2.kind == Withdraw && e3.kind == Withdraw
    ensures LargeWithdrawal([e1, e2, e3]) == (e3.amount > LargeWithdrawalLimit)
    ensures ThreeWithdrawals([e1, e2, e3]) && IncreasingDeposits([e1, e2, e3], order) == Some(false)
    ensures !DepositVelocity([e1, e2, e3])
  {
    var h := [e1, e2, e3];
    WithdrawalsOnlyHaveNoDeposits(h, e3.time);
    assert h[|h| - 3..] == h;
  }

  lemma DepositsOfThree(e1: Event, e2: Event, e3: Event)
    requires e1.kind == Deposit && e2.kind == Deposit && e3.kind == Deposit
    ensures Deposits([e1, e2, e3]) == [e1, e2, e3]
  {
    DepositsOfDepositsOnly([e1, e2, e3]);
  }

  lemma RecentDepositsOfThree(e1: Event, e2: Event, e3: Event)
    requires e1.kind == Deposit && e2.kind == Deposit && e3.kind == Deposit
    requires InWindow(e1, e3.time) && InWindow(e2, e3.time)
    ensures RecentDeposits([e1, e2, e3], e3.time) == [e1, e2, e3]
  {
    RecentDepositsOfRecentDepositsOnly([e1, e2, e3], e3.time);
  }

  lemma TotalOfThree(e1: Event, e2: Event, e3: Event)
    ensures Total([e1, e2, e3]) == e1.amount + e2.amount + e3.amount
  {
    TotalOfAppend([], e1);
    TotalOfAppend([e1], e2);
    TotalOfAppend([e1, e2], e3);
    assert [e1] == [] + [e1] && [e1, e2] == [e1] + [e2] && [e1, e2, e3] == [e1, e2] + [e3];
  }

  /** Three deposits within one window: rule 300 compares them (`i` is the
      outcome of the chained comparison), rule 123 adds them up. */
  lemma ThreeDepositsVerdicts(e1: Event, e2: Event, e3: Event, order: AmountOrder, i: bool)
    requires e1.kind == Deposit && e2.kind == Deposit && e3.kind == Deposit
    requires InWindow(e1, e3.time) && InWindow(e2, e3.time)
    requires Greater(e3, e2, order).Some?
    requires Greater(e3, e2, order) == Some(false) ==> !i
    requires Greater(e3, e2, order) == Some(true) ==> Greater(e2, e1, order) == Some(i)
    ensures !LargeWithdrawal([e1, e2, e3]) && !ThreeWithdrawals([e1, e2, e3])
    ensures IncreasingDeposits([e1, e2, e3], order) == Some(i)
    ensures DepositVelocity([e1, e2, e3]) == (e1.amount + e2.amount + e3.amount > VelocityLimit)
  {
    DepositsOfThree(e1, e2, e3);
    RecentDepositsOfThree(e1, e2, e3);
    TotalOfThree(e1, e2, e3);
  }

  /** A deposit more than 30 units after the previous one: that one no longer
      counts toward the window, and two deposits are too few for 300. */
  lemma SpreadDepositsVerdicts(e1: Event, e2: Event, order: AmountOrder)
    requires e1.kind == Deposit && e2.kind == Deposit && !InWindow(e1, e2.time)
    ensures !LargeWithdrawal([e1, e2]) && !ThreeWithdrawals([e1, e2])
    ensures IncreasingDeposits([e1, e2], order) == Some(false)
    ensures DepositVelocity([e1, e2]) == (e2.amount > VelocityLimit)
  {
    DepositsOfAppend([], e1);
    DepositsOfAppend([e1], e2);
    RecentDepositsOfAppend([], e1, e2.time);
    RecentDepositsOfAppend([e1], e2, e2.time);
    assert [e1] == [] + [e1] && [e1, e2] == [e1] + [e2];
    TotalOfAppend([], e2);
    assert [e2] == [] + [e2];
  }

  // ---------------------------------------------------------------------------
  // Short runs of submissions by a user new to the store, for any amounts.
  // ---------------------------------------------------------------------------

  /** The amount text `a` reads as the non-negative number `x`. */
  predicate ReadsAs(a: string, x: real)
  {
    ToFloat(Str(a)) == Converted(x) && x >= 0.0
  }

  /** A user's first event is answered by rules 1100 and 123 alone. */
  lemma FirstEventAnswer(s: Store, u: int, kind: string, a: string, x: real, t: int, order: AmountOrder)
    requires u !in s && (kind == "deposit" || kind == "withdraw") && ReadsAs(a, x)
    ensures Reports(SubmitWith(s, Body(kind, a, u, t), order).1, u,
                    Fired(kind == "withdraw" && x > LargeWithdrawalLimit, false, false,
                          kind == "deposit" && x > VelocityLimit))
  {
    var e := Event(KindNamed(kind), x, Str(a), u, t);
    FirstEventVerdicts(e, order);
    Answers(s, kind, Str(a), x, u, t, order, [e], kind == "withdraw" && x > LargeWithdrawalLimit, false, false,
            kind == "deposit" && x > VelocityLimit);
  }

  /** The third withdrawal in a row raises 30, and 1100 when it is over 100. */
  lemma ThirdWithdrawalAnswer(s: Store, u: int, e1: Event, e2: Event, a3: string, x3: real, t3: int,
                              order: AmountOrder)
    requires u in s && s[u] == [e1, e2] && ReadsAs(a3, x3)
    requires e1.kind == Withdraw && e2.kind == Withdraw && e2.time < t3
    ensures Reports(SubmitWith(s, Body("withdraw", a3, u, t3), order).1, u,
                    Fired(x3 > LargeWithdrawalLimit, true, false, false))
  {
    var e3 := Event(Withdraw, x3, Str(a3), u, t3);
    ThreeWithdrawalsVerdicts(e1, e2, e3, order);
    Answers(s, "withdraw", Str(a3), x3, u, t3, order, [e1, e2, e3], x3 > LargeWithdrawalLimit, true, false, false);
  }

  /** Three withdrawals in a row, by a user new to the store. */
  lemma ThreeWithdrawalsAnswer(s: Store, u: int, a1: string, a2: string, a3: string, x1: real, x2: real, x3: real,
                               t1: int, t2: int, t3: int, order: AmountOrder)
    requires u !in s && ReadsAs(a1, x1) && ReadsAs(a2, x2) && ReadsAs(a3, x3) && t1 < t2 < t3
    ensures
      var s1 := SubmitWith(s, Body("withdraw", a1, u, t1), order).0;
      var s2 := SubmitWith(s1, Body("withdraw", a2, u, t2), order).0;
      Reports(SubmitWith(s2, Body("withdraw", a3, u, t3), order).1, u,
              Fired(x3 > LargeWithdrawalLimit, true, false, false))
  {
    var e1 := Event(Withdraw, x1, Str(a1), u, t1);
    var e2 := Event(Withdraw, x2, Str(a2), u, t2);
    TwoStored(s, u, "withdraw", a1, x1, t1, "withdraw", a2, x2, t2, order);
    AppendTwo(s, e1, e2);
    ThirdWithdrawalAnswer(Append(Append(s, e1), e2), u, e1, e2, a3, x3, t3, order);
  }

  /** The third of three deposits within one 30-unit window: 300 reports the
      chained comparison `i`, 123 whether they add up to more than 200. */
  lemma ThirdDepositAnswer(s: Store, u: int, e1: Event, e2: Event, v: Value, x3: real, t3: int,
                           order: AmountOrder, i: bool)
    requires u in s && s[u] == [e1, e2] && ToFloat(v) == Converted(x3) && x3 >= 0.0
    requires e1.kind == Deposit && e2.kind == Deposit && e1.time < e2.time < t3 && t3 - e1.time <= VelocityWindow
    requires i == (Greater(Event(Deposit, x3, v, u, t3), e2, order) == Some(true)
                && Greater(e2, e1, order) == Some(true))
    requires Greater(Event(Deposit, x3, v, u, t3), e2, order).Some? && Greater(e2, e1, order).Some?
    ensures Reports(SubmitWith(s, Request("deposit", v, u, t3), order).1, u,
                    Fired(false, false, i, e1.amount + e2.amount + x3 > VelocityLimit))
  {
    var e3 := Event(Deposit, x3, v, u, t3);
    ThreeDepositsVerdicts(e1, e2, e3, order, i);
    Answers(s, "deposit", v, x3, u, t3, order, [e1, e2, e3], false, false, i,
            e1.amount + e2.amount + x3 > VelocityLimit);
  }

  /** Two submissions by a user new to the store, accepted one after the other,
      leave the two events as that user's history. */
  lemma TwoStored(s: Store, u: int, k1: string, a1: string, x1: real, t1: int,
                  k2: string, a2: string, x2: real, t2: int, order: AmountOrder)
    requires u !in s && (k1 == "deposit" || k1 == "withdraw") && (k2 == "deposit" || k2 == "withdraw")
    requires ReadsAs(a1, x1) && ReadsAs(a2, x2) && t1 < t2
    ensures
      var e1 := Event(KindNamed(k1), x1, Str(a1), u, t1);
      var e2 := Event(KindNamed(k2), x2, Str(a2), u, t2);
      var s1 := SubmitWith(s, Body(k1, a1, u, t1), order).0;
      var s2 := SubmitWith(s1, Body(k2, a2, u, t2), order).0;
      s2 == Append(Append(s, e1), e2)
  {
    var e1 := Event(KindNamed(k1), x1, Str(a1), u, t1);
    var e2 := Event(KindNamed(k2), x2, Str(a2), u, t2);
    Stores(s, k1, Str(a1), x1, u, t1, order);
    var s1 := Append(s, e1);
    assert s1[u] == [e1];
    Stores(s1, k2, Str(a2), x2, u, t2, order);
  }

  /** Two events appended for a user new to the store are that user's history. */
  lemma AppendTwo(s: Store, e1: Event, e2: Event)
    requires e1.user !in s && e2.user == e1.user
    ensures e1.user in Append(Append(s, e1), e2) && Append(Append(s, e1), e2)[e1.user] == [e1, e2]
  {
    assert HistoryOf(Append(s, e1), e1.user) == [e1] && [e1] + [e2] == [e1, e2];
  }

  /** Three deposits within one 30-unit window, by a user new to the store. */
  lemma ThreeDepositsAnswer(s: Store, u: int, a1: string, a2: string, a3: string, x1: real, x2: real, x3: real,
                            t1: int, t2: int, t3: int, order: AmountOrder, i: bool)
    requires u !in s && ReadsAs(a1, x1) && ReadsAs(a2, x2) && ReadsAs(a3, x3)
    requires t1 < t2 < t3 && t3 - t1 <= VelocityWindow
    requires i == (Greater(Event(Deposit, x3, Str(a3), u, t3), Event(Deposit, x2, Str(a2), u, t2), order) == Some(true)
                && Greater(Event(Deposit, x2, Str(a2), u, t2), Event(Deposit, x1, Str(a1), u, t1), order) == Some(true))
    ensures
      var s1 := SubmitWith(s, Body("deposit", a1, u, t1), order).0;
      var s2 := SubmitWith(s1, Body("deposit", a2, u, t2), order).0;
      Reports(SubmitWith(s2, Body("deposit", a3, u, t3), order).1, u,
              Fired(false, false, i, x1 + x2 + x3 > VelocityLimit))
  {
    var e1 := Event(Deposit, x1, Str(a1), u, t1);
    var e2 := Event(Deposit, x2, Str(a2), u, t2);
    TwoStored(s, u, "deposit", a1, x1, t1, "deposit", a2, x2, t2, order);
    AppendTwo(s, e1, e2);
    ThirdDepositAnswer(Append(Append(s, e1), e2), u, e1, e2, Str(a3), x3, t3, order, i);
  }

  /** A second deposit more than 30 units after the first: 123 sees only it. */
  lemma SecondDepositAnswer(s: Store, u: int, e1: Event, a2: string, x2: real, t2: int, order: AmountOrder)
    requires u in s && s[u] == [e1] && ReadsAs(a2, x2)
    requires e1.kind == Deposit && t2 - e1.time > VelocityWindow
    ensures Reports(SubmitWith(s, Body("deposit", a2, u, t2), order).1, u, Fired(false, false, false, x2 > VelocityLimit))
  {
    var e2 := Event(Deposit, x2, Str(a2), u, t2);
    SpreadDepositsVerdicts(e1, e2, order);
    Answers(s, "deposit", Str(a2), x2, u, t2, order, [e1, e2], false, false, false, x2 > VelocityLimit);
  }

  /** Two deposits more than 30 units apart, by a user new to the store. */
  lemma SpreadDepositsAnswer(s: Store, u: int, a1: string, a2: string, x1: real, x2: real, t1: int, t2: int,
                             order: AmountOrder)
    requires u !in s && ReadsAs(a1, x1) && ReadsAs(a2, x2) && t2 - t1 > VelocityWindow
    ensures
      var s1 := SubmitWith(s, Body("deposit", a1, u, t1), order).0;
      Reports(SubmitWith(s1, Body("deposit", a2, u, t2), order).1, u, Fired(false, false, false, x2 > VelocityLimit))
  {
    var e1 := Event(Deposit, x1, Str(a1), u, t1);
    Stores(s, "deposit", Str(a1), x1, u, t1, order);
    var s1 := Append(s, e1);
    assert s1[u] == [e1];
    SecondDepositAnswer(s1, u, e1, a2, x2, t2, order);
  }

  /** A second event no later than the first is rejected and stores nothing. */
  lemma NotLaterRejected(s: Store, u: int, k1: string, a1: string, x1: real, t1: int,
                         k2: string, a2: string, x2: real, t2: int, order: AmountOrder)
    requires u !in s && (k1 == "deposit" || k1 == "withdraw") && (k2 == "deposit" || k2 == "withdraw")
    requires ReadsAs(a1, x1) && ReadsAs(a2, x2) && t2 <= t1
    ensures
      var s1 := SubmitWith(s, Body(k1, a1, u, t1), order).0;
      SubmitWith(s1, Body(k2, a2, u, t2), order) == (s1, Rejected(NonSequentialTime))
  {
    var e1 := Event(KindNamed(k1), x1, Str(a1), u, t1);
    Stores(s, k1, Str(a1), x1, u, t1, order);
    var s1 := Append(s, e1);
    assert s1[u] == [e1];
    NotAfterLast(s1, u, e1, k2, a2, x2, t2);
  }

  /** A well-formed body whose time is not after the user's last event fails
      only the ordering check. */
  lemma NotAfterLast(s: Store, u: int, e1: Event, k2: string, a2: string, x2: real, t2: int)
    requires u in s && s[u] == [e1] && t2 <= e1.time
    requires (k2 == "deposit" || k2 == "withdraw") && ReadsAs(a2, x2)
    ensures Validate(s, Body(k2, a2, u, t2)) == Invalid(NonSequentialTime)
  {
    ValidateChecksInOrder(s, Body(k2, a2, u, t2));
  }

  // ---------------------------------------------------------------------------
  // The scenarios of tests/test_event.py.
  // ---------------------------------------------------------------------------

  /** tests/test_event.py:13-23: a small deposit raises nothing. */
  lemma DepositNoAlert(s: Store)
    requires 1 !in s
    ensures Reports(Submit(s, Body("deposit", "50.00", 1, 10)).1, 1, {})
  {
    Reads50();
    FirstEventAnswer(s, 1, "deposit", "50.00", 50.0, 10, AsSubmitted);
  }

  /** tests/test_event.py:27-37: a withdrawal over 100 raises code 1100. */
  lemma WithdrawalOver100(s: Store)
    requires 2 !in s
    ensures Reports(Submit(s, Body("withdraw", "150.00", 2, 20)).1, 2, {LargeWithdrawalCode})
  {
    Reads150();
    FirstEventAnswer(s, 2, "withdraw", "150.00", 150.0, 20, AsSubmitted);
  }

  /** tests/test_event.py:41-49: the third withdrawal in a row raises code 30. */
  lemma ThreeConsecutiveWithdrawals(s: Store)
    requires 3 !in s
    ensures
      var s1 := Submit(s, Body("withdraw", "50.00", 3, 5)).0;
      var s2 := Submit(s1, Body("withdraw", "30.00", 3, 10)).0;
      Reports(Submit(s2, Body("withdraw", "70.00", 3, 15)).1, 3, {ConsecutiveWithdrawalsCode})
  {
    Reads50();
    Reads30();
    Reads70();
    ThreeWithdrawalsAnswer(s, 3, "50.00", "30.00", "70.00", 50.0, 30.0, 70.0, 5, 10, 15, AsSubmitted);
  }

  /** tests/test_event.py:53-60: a body without `type` is rejected for it. */
  lemma MissingType(s: Store)
    ensures Submit(s, map["amount" := Str("50.00"), "user_id" := Int(4), "time" := Int(10)])
         == (s, Rejected(MissingField("type")))
  {
  }

  /** tests/test_event.py:64-72: an amount that is not a number. */
  lemma InvalidAmount(s: Store)
    ensures Submit(s, Body("deposit", "invalid", 5, 10)) == (s, Rejected(InvalidAmountFormat))
  {
    RejectsWord();
    assert Validate(s, Body("deposit", "invalid", 5, 10)) == Invalid(InvalidAmountFormat);
  }

  /** tests/test_event.py:76-84: a negative amount. */
  lemma NegativeAmountRejected(s: Store)
    ensures Submit(s, Body("deposit", "-100.00", 6, 10)) == (s, Rejected(NegativeAmount))
  {
    ReadsNegative();
    assert Validate(s, Body("deposit", "-100.00", 6, 10)) == Invalid(NegativeAmount);
  }

  /** tests/test_event.py:88-100: a very large amount is accepted; as a
      withdrawal it raises code 1100. */
  lemma LargeAmountAccepted(s: Store)
    requires 7 !in s
    ensures Reports(Submit(s, Body("withdraw", "9999999999.99", 7, 20)).1, 7, {LargeWithdrawalCode})
  {
    ReadsLarge();
    FirstEventAnswer(s, 7, "withdraw", "9999999999.99", 9999999999.99, 20, AsSubmitted);
  }

  /** tests/test_event.py:104-109: a time before the last stored one is
      rejected, and the store keeps only the first deposit. */
  lemma NonSequentialTimeRejected(s: Store)
    requires 8 !in s
    ensures
      var s1 := Submit(s, Body("deposit", "50.00", 8, 10)).0;
      Submit(s1, Body("deposit", "60.00", 8, 5)) == (s1, Rejected(NonSequentialTime))
  {
    Reads50();
    Reads60();
    NotLaterRejected(s, 8, "deposit", "50.00", 50.0, 10, "deposit", "60.00", 60.0, 5, AsSubmitted);
  }

  /** tests/test_event.py:113-116: an empty body. */
  lemma EmptyPayload(s: Store)
    ensures Submit(s, map[]) == (s, Rejected(MissingField("type")))
  {
    assert Validate(s, map[]) == Invalid(MissingField(RequiredFields[0]));
  }

  /** tests/test_event.py:120-128: three increasing deposits raise code 300. */
  lemma ThreeIncreasingDeposits(s: Store)
    requires 9 !in s
    ensures
      var s1 := Submit(s, Body("deposit", "50.00", 9, 10)).0;
      var s2 := Submit(s1, Body("deposit", "60.00", 9, 20)).0;
      Reports(Submit(s2, Body("deposit", "70.00", 9, 30)).1, 9, {IncreasingDepositsCode})
  {
    Reads50();
    Reads60();
    Reads70();
    assert StrLess("50.00", "60.00") && StrLess("60.00", "70.00");
    ThreeDepositsAnswer(s, 9, "50.00", "60.00", "70.00", 50.0, 60.0, 70.0, 10, 20, 30, AsSubmitted, true);
  }

  /** tests/test_event.py:132-140: 320 deposited within 30 units raises code
      123; the amounts do not increase, so 300 stays silent. */
  lemma DepositsOver200Within30(s: Store)
    requires 10 !in s
    ensures
      var s1 := Submit(s, Body("deposit", "100.00", 10, 10)).0;
      var s2 := Submit(s1, Body("deposit", "120.00", 10, 25)).0;
      Reports(Submit(s2, Body("deposit", "100.00", 10, 30)).1, 10, {DepositVelocityCode})
  {
    Reads100();
    Reads120();
    assert !StrLess("120.00", "100.00");
    ThreeDepositsAnswer(s, 10, "100.00", "120.00", "100.00", 100.0, 120.0, 100.0, 10, 25, 30, AsSubmitted, false);
  }

  /** tests/test_event.py:144-151: 35 units apart, the first deposit falls
      out of the window and nothing is raised. */
  lemma DepositsSpreadOut(s: Store)
    requires 11 !in s
    ensures
      var s1 := Submit(s, Body("deposit", "100.00", 11, 10)).0;
      Reports(Submit(s1, Body("deposit", "120.00", 11, 45)).1, 11, {})
  {
    Reads100();
    Reads120();
    SpreadDepositsAnswer(s, 11, "100.00", "120.00", 100.0, 120.0, 10, 45, AsSubmitted);
  }

  /** The user-facing messages the tests compare against. */
  lemma TestedMessages()
    ensures Message(MissingField("type")) == "Missing field: type"
    ensures Message(InvalidAmountFormat) == "Invalid amount. Must be a valid number."
    ensures Message(NegativeAmount) == "Amount cannot be negative."
    ensures Message(NonSequentialTime) == "Time must be sequential and increasing."
  {
  }

  // ---------------------------------------------------------------------------
  // Rule 300 compares the amounts as submitted (app/routes.py:75-78).
  // ---------------------------------------------------------------------------

  /** As written, 8, 9, 10 do not count as increasing: "9.00" sorts after
      "10.00". */
  lemma TextOrderMissesIncrease(s: Store)
    requires 12 !in s
    ensures
      var s1 := Submit(s, Body("deposit", "8.00", 12, 10)).0;
      var s2 := Submit(s1, Body("deposit", "9.00", 12, 20)).0;
      Reports(Submit(s2, Body("deposit", "10.00", 12, 30)).1, 12, {})
  {
    Reads8();
    Reads9();
    Reads10();
    assert !StrLess("9.00", "10.00");
    ThreeDepositsAnswer(s, 12, "8.00", "9.00", "10.00", 8.0, 9.0, 10.0, 10, 20, 30, AsSubmitted, false);
  }

  /** Comparing the parsed amounts, the same deposits raise code 300. */
  lemma NumericOrderSeesIncrease(s: Store)
    requires 12 !in s
    ensures
      var s1 := SubmitIntended(s, Body("deposit", "8.00", 12, 10)).0;
      var s2 := SubmitIntended(s1, Body("deposit", "9.00", 12, 20)).0;
      Reports(SubmitIntended(s2, Body("deposit", "10.00", 12, 30)).1, 12, {IncreasingDepositsCode})
  {
    Reads8();
    Reads9();
    Reads10();
    ThreeDepositsAnswer(s, 12, "8.00", "9.00", "10.00", 8.0, 9.0, 10.0, 10, 20, 30, Numeric, true);
  }

  /** As written, 100, 20, 3 count as increasing: "100.00" < "20.00" < "3.00". */
  lemma TextOrderInventsIncrease(s: Store)
    requires 12 !in s
    ensures
      var s1 := Submit(s, Body("deposit", "100.00", 12, 10)).0;
      var s2 := Submit(s1, Body("deposit", "20.00", 12, 20)).0;
      Reports(Submit(s2, Body("deposit", "3.00", 12, 30)).1, 12, {IncreasingDepositsCode})
  {
    Reads100();
    Reads20();
    Reads3();
    assert StrLess("100.00", "20.00") && StrLess("20.00", "3.00");
    ThreeDepositsAnswer(s, 12, "100.00", "20.00", "3.00", 100.0, 20.0, 3.0, 10, 20, 30, AsSubmitted, true);
  }

  /** Comparing the parsed amounts, decreasing deposits raise nothing. */
  lemma NumericOrderSeesDecrease(s: Store)
    requires 12 !in s
    ensures
      var s1 := SubmitIntended(s, Body("deposit", "100.00", 12, 10)).0;
      var s2 := SubmitIntended(s1, Body("deposit", "20.00", 12, 20)).0;
      Reports(SubmitIntended(s2, Body("deposit", "3.00", 12, 30)).1, 12, {})
  {
    Reads100();
    Reads20();
    Reads3();
    ThreeDepositsAnswer(s, 12, "100.00", "20.00", "3.00", 100.0, 20.0, 3.0, 10, 20, 30, Numeric, false);
  }

  // ---------------------------------------------------------------------------
  // A comparison that raises comes after the append (app/routes.py:56-78).
  // ---------------------------------------------------------------------------

  /** A JSON number after two text amounts: as written the comparison of rule
      300 raises, yet the event is already stored. */
  lemma ThirdNumberCrashes(s: Store, u: int, e1: Event, e2: Event, n: nat, t3: int)
    requires u in s && s[u] == [e1, e2] && e1.kind == Deposit && e2.kind == Deposit && e2.raw.Str?
    requires e2.time < t3 && n < FloatOverflowBound
    ensures SubmitWith(s, Request("deposit", Int(n), u, t3), AsSubmitted)
         == (Append(s, Event(Deposit, n as real, Int(n), u, t3)), Fault)
  {
    var e3 := Event(Deposit, n as real, Int(n), u, t3);
    DepositsOfThree(e1, e2, e3);
    Crashes(s, "deposit", Int(n), n as real, u, t3, AsSubmitted, [e1, e2, e3]);
  }

  /** "50.00", "60.00", then the number 70: the handler fails with a 500 and
      the third deposit stays in the history. */
  lemma MixedAmountStoredThenFails(s: Store)
    requires 13 !in s
    ensures
      var s1 := Submit(s, Body("deposit", "50.00", 13, 10)).0;
      var s2 := Submit(s1, Body("deposit", "60.00", 13, 20)).0;
      Submit(s2, Request("deposit", Int(70), 13, 30))
        == (Append(s2, Event(Deposit, 70.0, Int(70), 13, 30)), Fault)
  {
    Reads50();
    Reads60();
    var e1 := Event(Deposit, 50.0, Str("50.00"), 13, 10);
    var e2 := Event(Deposit, 60.0, Str("60.00"), 13, 20);
    TwoStored(s, 13, "deposit", "50.00", 50.0, 10, "deposit", "60.00", 60.0, 20, AsSubmitted);
    AppendTwo(s, e1, e2);
    ThirdNumberCrashes(Append(Append(s, e1), e2), 13, e1, e2, 70, 30);
  }

  /** Once rule 300's comparison raises on a user's history, a withdrawal keeps
      the deposits as they were: it too is stored and answered with a 500. */
  lemma WithdrawalAfterFaultFails(s: Store, u: int, a: string, x: real, t: int)
    requires u in s && |s[u]| > 0 && s[u][|s[u]| - 1].time < t
    requires IncreasingDeposits(s[u], AsSubmitted).None? && ReadsAs(a, x)
    ensures Submit(s, Body("withdraw", a, u, t)) == (Append(s, Event(Withdraw, x, Str(a), u, t)), Fault)
  {
    var e := Event(Withdraw, x, Str(a), u, t);
    WithdrawalKeepsIncreasingDeposits(s[u], e, AsSubmitted);
    Crashes(s, "withdraw", Str(a), x, u, t, AsSubmitted, s[u] + [e]);
  }

  /** A text deposit right after a deposit sent as a number: the first link of
      the chained `>` puts a str against an int, so the deposit is stored and
      answered with a 500. */
  lemma TextDepositAfterNumberFails(s: Store, u: int, a: string, x: real, t: int)
    requires u in s && |s[u]| > 0 && s[u][|s[u]| - 1].time < t
    requires |Deposits(s[u])| >= 2 && Deposits(s[u])[|Deposits(s[u])| - 1].raw.Int?
    requires ReadsAs(a, x)
    ensures Submit(s, Body("deposit", a, u, t)) == (Append(s, Event(Deposit, x, Str(a), u, t)), Fault)
  {
    var e := Event(Deposit, x, Str(a), u, t);
    var d := Deposits(s[u]);
    DepositsOfAppend(s[u], e);
    assert Deposits(s[u] + [e]) == d + [e];
    assert (d + [e])[|d|] == e && (d + [e])[|d| - 1] == d[|d| - 1];
    Crashes(s, "deposit", Str(a), x, u, t, AsSubmitted, s[u] + [e]);
  }

  /** The store that "50.00", "60.00" and the number 70 leave behind (see
      `MixedAmountStoredThenFails`) keeps failing: the user's next withdrawal
      and next text deposit are each stored and answered with a 500. */
  lemma MixedAmountFaultPersists(s: Store)
    requires 13 !in s
    ensures
      var s3 := Append(Append(Append(s, Event(Deposit, 50.0, Str("50.00"), 13, 10)),
                              Event(Deposit, 60.0, Str("60.00"), 13, 20)),
                       Event(Deposit, 70.0, Int(70), 13, 30));
      && Submit(s3, Body("withdraw", "10.00", 13, 40)) == (Append(s3, Event(Withdraw, 10.0, Str("10.00"), 13, 40)), Fault)
      && Submit(s3, Body("deposit", "80.00", 13, 40)) == (Append(s3, Event(Deposit, 80.0, Str("80.00"), 13, 40)), Fault)
  {
    Reads10();
    Reads80();
    var e1 := Event(Deposit, 50.0, Str("50.00"), 13, 10);
    var e2 := Event(Deposit, 60.0, Str("60.00"), 13, 20);
    var e3 := Event(Deposit, 70.0, Int(70), 13, 30);
    var s3 := Append(Append(Append(s, e1), e2), e3);
    MixedHistory(s, e1, e2, e3);
    WithdrawalAfterFaultFails(s3, 13, "10.00", 10.0, 40);
    TextDepositAfterNumberFails(s3, 13, "80.00", 80.0, 40);
  }

  /** Two text deposits then a number deposit, by a user new to the store. */
  lemma MixedHistory(s: Store, e1: Event, e2: Event, e3: Event)
    requires 13 !in s && e1.user == e2.user == e3.user == 13
    requires e1.kind == Deposit && e2.kind == Deposit && e3.kind == Deposit
    requires e2.raw.Str? && e3.raw.Int?
    ensures var s3 := Append(Append(Append(s, e1), e2), e3);
      && 13 in s3 && s3[13] == [e1, e2, e3]
      && |s3[13]| > 0 && s3[13][|s3[13]| - 1].time == e3.time
      && IncreasingDeposits(s3[13], AsSubmitted).None?
      && Deposits(s3[13]) == [e1, e2, e3]
  {
    AppendTwo(s, e1, e2);
    var s3 := Append(Append(Append(s, e1), e2), e3);
    assert s3[13] == [e1, e2, e3];
    DepositsOfThree(e1, e2, e3);
  }

  /** Comparing the parsed amounts, the same submissions are accepted and raise
      code 300. */
  lemma MixedAmountAnsweredWhenNumeric(s: Store)
    requires 13 !in s
    ensures
      var s1 := SubmitIntended(s, Body("deposit", "50.00", 13, 10)).0;
      var s2 := SubmitIntended(s1, Body("deposit", "60.00", 13, 20)).0;
      Reports(SubmitIntended(s2, Request("deposit", Int(70), 13, 30)).1, 13, {IncreasingDepositsCode})
  {
    Reads50();
    Reads60();
    var e1 := Event(Deposit, 50.0, Str("50.00"), 13, 10);
    var e2 := Event(Deposit, 60.0, Str("60.00"), 13, 20);
    TwoStored(s, 13, "deposit", "50.00", 50.0, 10, "deposit", "60.00", 60.0, 20, Numeric);
    AppendTwo(s, e1, e2);
    ThirdDepositAnswer(Append(Append(s, e1), e2), 13, e1, e2, Int(70), 70.0, 30, Numeric, true);
  }

}

=== FILE: text.dfy ===
/**
  Text helpers the engine relies on: the ordering Python applies to two `str`
  values, and a plain decimal reader standing in for Python's `float(str)`.
 */
module Text {

  import opened Optional

  // ---------------------------------------------------------------------------
  // Python's `<` on `str`: compare code points left to right; at the first
  // difference the smaller code point wins; a proper prefix is smaller.
  // ---------------------------------------------------------------------------

  predicate StrLess(a: string, b: string)
  {
    if |a| == 0 then |b| > 0
    else if |b| == 0 then false
    else if a[0] != b[0] then a[0] < b[0]
    else StrLess(a[1..], b[1..])
  }

  /** Reference definition of lexicographic order, with no recursion. */
  ghost predicate LexBefore(a: string, b: string)
  {
    || (|a| < |b| && a == b[..|a|])
    || exists k :: 0 <= k < |a| && k < |b| && a[..k] == b[..k] && a[k] < b[k]
  }

  lemma {:induction false} StrLessIsLexBefore(a: string, b: string)
    ensures StrLess(a, b) <==> LexBefore(a, b)
    decreases |a|
  {
    if |a| == 0 || |b| == 0 {
      assert |a| == 0 ==> a == b[..|a|];
    } else if a[0] != b[0] {
      forall k | 0 < k <= |a| && k <= |b|
        ensures a[..k] == b[..k] ==> a[0] == b[0]
      {
        assert a[..k][0] == a[0] && b[..k][0] == b[0];
      }
      if |a| < |b| {
        assert b[..|a|][0] == b[0];
      }
      if a[0] < b[0] {
        assert a[..0] == b[..0];
      }
    } else {
      var a', b' := a[1..], b[1..];
      StrLessIsLexBefore(a', b');
      if StrLess(a', b') {
        if |a'| < |b'| && a' == b'[..|a'|] {
          assert a == [a[0]] + a' && b[..|a|] == [b[0]] + b'[..|a'|];
        } else {
          var k' :| 0 <= k' < |a'| && k' < |b'| && a'[..k'] == b'[..k'] && a'[k'] < b'[k'];
          assert a[..k' + 1] == [a[0]] + a'[..k'] && b[..k' + 1] == [b[0]] + b'[..k'];
          assert a[k' + 1] < b[k' + 1];
        }
      }
      if LexBefore(a, b) {
        if |a| < |b| && a == b[..|a|] {
          assert a' == b'[..|a'|];
        } else {
          var k :| 0 <= k < |a| && k < |b| && a[..k] == b[..k] && a[k] < b[k];
          assert k > 0;
          assert a'[..k - 1] == a[1..k] && b'[..k - 1] == b[1..k];
          assert a[1..k] == a[..k][1..] && b[1..k] == b[..k][1..];
          assert a'[k - 1] < b'[k - 1];
        }
      }
    }
  }

  lemma {:induction false} StrLessIrreflexive(a: string)
    ensures !StrLess(a, a)
    decreases |a|
  {
    if |a| > 0 {
      StrLessIrreflexive(a[1..]);
    }
  }

  lemma {:induction false} StrLessTransitive(a: string, b: string, c: string)
    requires StrLess(a, b) && StrLess(b, c)
    ensures StrLess(a, c)
    decreases |a|
  {
    if |a| > 0 && a[0] == b[0] && b[0] == c[0] {
      StrLessTransitive(a[1..], b[1..], c[1..]);
    }
  }

  /** Any two strings are equal or ordered one way: Python never raises here. */
  lemma {:induction false} StrLessTotal(a: string, b: string)
    ensures StrLess(a, b) || a == b || StrLess(b, a)
    decreases |a|
  {
    if |a| > 0 && |b| > 0 && a[0] == b[0] {
      StrLessTotal(a[1..], b[1..]);
      if a[1..] == b[1..] {
        assert a == [a[0]] + a[1..] && b == [b[0]] + b[1..];
      }
    }
  }

  // ---------------------------------------------------------------------------
  // Decimal digits
  // ---------------------------------------------------------------------------

  predicate IsDigit(c: char)
  {
    '0' <= c <= '9'
  }

  predicate AllDigits(s: string)
  {
    forall i :: 0 <= i < |s| ==> IsDigit(s[i])
  }

  function DigitValue(c: char): (d: nat)
    requires IsDigit(c)
    ensures d < 10
  {
    (c as int) - ('0' as int)
  }

  function DigitChar(d: nat): (c: char)
    requires d < 10
    ensures IsDigit(c) && DigitValue(c) == d
  {
    ('0' as int + d) as char
  }

  /** The number a run of decimal digits denotes (the empty run denotes 0). */
  function DigitsValue(s: string): nat
    requires AllDigits(s)
  {
    if |s| == 0 then 0 else DigitsValue(s[..|s| - 1]) * 10 + DigitValue(s[|s| - 1])
  }

  function Pow10(n: nat): (p: nat)
    ensures p >= 1
  {
    if n == 0 then 1 else 10 * Pow10(n - 1)
  }

  /** Shortest decimal spelling of a natural number. */
  function ShowNat(n: nat): (s: string)
    ensures |s| > 0 && AllDigits(s)
  {
    if n < 10 then [DigitChar(n)] else ShowNat(n / 10) + [DigitChar(n % 10)]
  }

  lemma {:induction false} DigitsValueShowNat(n: nat)
    ensures DigitsValue(ShowNat(n)) == n
  {
    if n >= 10 {
      var s := ShowNat(n);
      assert s[..|s| - 1] == ShowNat(n / 10);
      DigitsValueShowNat(n / 10);
    }
  }

  function IndexOf(s: string, c: char): (i: nat)
    ensures i <= |s|
    ensures i < |s| ==> s[i] == c
    ensures forall j :: 0 <= j < i ==> s[j] != c
  {
    if |s| == 0 then 0
    else if s[0] == c then 0
    else 1 + IndexOf(s[1..], c)
  }

  // ---------------------------------------------------------------------------
  // Decimal reader standing in for `float(str)`:
  //   [+|-] digits [. digits]   or   [+|-] [digits] . digits
  // with at least one digit overall.
  // ---------------------------------------------------------------------------

  /** The value of the digits after a decimal point. */
  function FractionValue(f: string): (x: real)
    requires AllDigits(f)
    ensures 0.0 <= x
  {
    DigitsValue(f) as real / Pow10(|f|) as real
  }

  /** Digits with a decimal point: at least one digit on either side. */
  function ParsePointed(whole: string, frac: string): (r: Option<real>)
    ensures r.Some? ==> r.value >= 0.0
  {
    if |whole| + |frac| > 0 && AllDigits(whole) && AllDigits(frac) then
      Some(DigitsValue(whole) as real + FractionValue(frac))
    else None
  }

  function ParseUnsigned(s: string): (r: Option<real>)
    ensures r.Some? ==> r.value >= 0.0
  {
    var i := IndexOf(s, '.');
    if i == |s| then
      if |s| > 0 && AllDigits(s) then Some(DigitsValue(s) as real) else None
    else ParsePointed(s[..i], s[i + 1..])
  }

  function ParseDecimal(s: string): (r: Option<real>)
    ensures r.Some? ==> |s| > 0
    ensures r.Some? && r.value < 0.0 ==> s[0] == '-'
  {
    if |s| > 0 && s[0] == '-' then
      match ParseUnsigned(s[1..])
      case Some(x) => Some(-x)
      case None => None
    else if |s| > 0 && s[0] == '+' then ParseUnsigned(s[1..])
    else ParseUnsigned(s)
  }

  /** Spelling of an amount given in hundredths, in the "123.45" form clients send. */
  function ShowCents(c: int): (s: string)
    ensures |s| > 0
  {
    var m: nat := if c < 0 then -c else c;
    var digits := ShowNat(m / 100) + "." + [DigitChar(m % 100 / 10), DigitChar(m % 10)];
    if c < 0 then "-" + digits else digits
  }

  lemma IndexOfAfterDigits(w: string, f: string)
    requires AllDigits(w)
    ensures IndexOf(w + "." + f, '.') == |w|
  {
    var s := w + "." + f;
    assert s[|w|] == '.';
    forall j | 0 <= j < |w| ensures s[j] != '.' {
      assert s[j] == w[j] && IsDigit(w[j]);
    }
  }

  lemma TwoDigitsValue(d1: nat, d0: nat)
    requires d1 < 10 && d0 < 10
    ensures DigitsValue([DigitChar(d1), DigitChar(d0)]) == 10 * d1 + d0
  {
    var f := [DigitChar(d1), DigitChar(d0)];
    assert f[..1] == [f[0]];
    assert [f[0]][..0] == [];
    assert DigitsValue([f[0]]) == DigitValue(f[0]) == d1;
    assert DigitsValue(f) == DigitsValue(f[..1]) * 10 + DigitValue(f[1]);
  }

  /** A run of digits, a point and a run of digits reads as the whole part
      plus the fraction. */
  lemma ParseUnsignedPoint(w: string, f: string)
    requires |w| > 0 && AllDigits(w) && AllDigits(f)
    ensures ParseUnsigned(w + "." + f) == Some(DigitsValue(w) as real + FractionValue(f))
  {
    var s := w + "." + f;
    IndexOfAfterDigits(w, f);
    assert |s| == |w| + 1 + |f|;
    assert s[..|w|] == w && s[|w| + 1..] == f;
    assert ParseUnsigned(s) == ParsePointed(w, f);
  }

  /** The two digits after the point spell the hundredths. */
  lemma CentsDigits(m: nat)
    ensures 10 * (m % 100 / 10) + m % 10 == m % 100
  {
    var r := m % 100;
    assert r == 10 * (r / 10) + r % 10;
    assert m == 10 * (10 * (m / 100) + r / 10) + r % 10;
  }

  lemma CentsSplit(m: nat)
    ensures (m / 100) as real + (m % 100) as real / 100.0 == m as real / 100.0
  {
    var q, r := m / 100, m % 100;
    assert m == 100 * q + r;
    assert (m as real) == 100.0 * (q as real) + (r as real);
  }

  /** The two digits after the point read as the hundredths. */
  lemma CentsFraction(m: nat)
    ensures FractionValue([DigitChar(m % 100 / 10), DigitChar(m % 10)]) == (m % 100) as real / 100.0
  {
    TwoDigitsValue(m % 100 / 10, m % 10);
    CentsDigits(m);
    assert Pow10(2) == 100;
  }

  lemma ParseUnsignedCents(m: nat)
    ensures ParseUnsigned(ShowNat(m / 100) + "." + [DigitChar(m % 100 / 10), DigitChar(m % 10)])
         == Some(m as real / 100.0)
  {
    ParseUnsignedPoint(ShowNat(m / 100), [DigitChar(m % 100 / 10), DigitChar(m % 10)]);
    DigitsValueShowNat(m / 100);
    CentsFraction(m);
    CentsSplit(m);
  }

  /** A leading digit means no sign: the reader goes straight to the digits,
      and a leading '-' negates what they spell. */
  lemma ParseDecimalOfDigits(u: string)
    requires |u| > 0 && IsDigit(u[0])
    ensures ParseDecimal(u) == ParseUnsigned(u)
    ensures ParseUnsigned(u).Some? ==> ParseDecimal("-" + u) == Some(-ParseUnsigned(u).value)
  {
    assert ("-" + u)[1..] == u;
  }

  /** Round trip: reading back a spelled amount yields the exact amount. */
  lemma ParseShowCents(c: int)
    ensures ParseDecimal(ShowCents(c)) == Some(c as real / 100.0)
  {
    var m: nat := if c < 0 then -c else c;
    var digits := ShowNat(m / 100) + "." + [DigitChar(m % 100 / 10), DigitChar(m % 10)];
    ParseUnsignedCents(m);
    ParseDecimalOfDigits(digits);
    if c < 0 {
      assert ShowCents(c) == "-" + digits;
      assert -(m as real / 100.0) == c as real / 100.0;
    } else {
      assert ShowCents(c) == digits;
    }
  }

}

=== FILE: validation.dfy ===
/**
  `validate_payload` (app/routes.py:8-44): a fixed, short-circuiting sequence
  of checks that reports only the first failure.
 */
module Validation {

  import opened Optional
  import opened Events

  datatype ValidationError =
    | MissingField(name: string)
    | InvalidKind
    | InvalidAmountFormat
    | NegativeAmount
    | InvalidUserId
    | InvalidTime
    | NonSequentialTime

  const MissingPrefix := "Missing field: "

  /** The user-facing text of each error, verbatim. */
  function Message(e: ValidationError): string
  {
    match e
    case MissingField(name) => MissingPrefix + name
    // Split in two: the solver sees the letters of a string literal this long
    // only as a whole, and the round-trip proofs below need its first letter.
    case InvalidKind => "Invalid action type. " + "Must be 'deposit' or 'withdraw'."
    case InvalidAmountFormat => "Invalid amount. Must be a valid number."
    case NegativeAmount => "Amount cannot be negative."
    case InvalidUserId => "Invalid user_id. Must be an integer."
    case InvalidTime => "Invalid time. Must be an integer."
    case NonSequentialTime => "Time must be sequential and increasing."
  }

  /** Recovers the error from its message: the inverse of `Message`. */
  function ErrorOfMessage(m: string): Option<ValidationError>
  {
    if |MissingPrefix| <= |m| && m[..|MissingPrefix|] == MissingPrefix then
      Some(MissingField(m[|MissingPrefix|..]))
    else if m == Message(InvalidKind) then Some(InvalidKind)
    else if m == Message(InvalidAmountFormat) then Some(InvalidAmountFormat)
    else if m == Message(NegativeAmount) then Some(NegativeAmount)
    else if m == Message(InvalidUserId) then Some(InvalidUserId)
    else if m == Message(InvalidTime) then Some(InvalidTime)
    else if m == Message(NonSequentialTime) then Some(NonSequentialTime)
    else None
  }

  /** A missing-field message gives back the field's name. */
  lemma MissingMessageRoundTrip(name: string)
    ensures ErrorOfMessage(Message(MissingField(name))) == Some(MissingField(name))
  {
    var m := Message(MissingField(name));
    assert m[..|MissingPrefix|] == MissingPrefix;
    assert m[|MissingPrefix|..] == name;
  }

  /** Every error is told apart by its message alone. */
  lemma MessageRoundTrip(e: ValidationError)
    ensures ErrorOfMessage(Message(e)) == Some(e)
  {
    if e.MissingField? {
      MissingMessageRoundTrip(e.name);
    } else {
      OtherMessageRoundTrip(e);
    }
  }

  /** The fixed messages do not start like a missing-field message, and no two
      of them coincide. */
  lemma OtherMessageRoundTrip(e: ValidationError)
    requires !e.MissingField?
    ensures ErrorOfMessage(Message(e)) == Some(e)
  {
    match e
    case InvalidKind => InvalidKindRoundTrip();
    case InvalidAmountFormat => InvalidAmountFormatRoundTrip();
    case NegativeAmount => NegativeAmountRoundTrip();
    case InvalidUserId => InvalidUserIdRoundTrip();
    case InvalidTime => InvalidTimeRoundTrip();
    case NonSequentialTime => NonSequentialTimeRoundTrip();
  }

  /** A text whose first letter is not 'M' is no missing-field message. */
  lemma NotMissingPrefix(m: string)
    requires |m| > 0 && m[0] != 'M'
    ensures !(|MissingPrefix| <= |m| && m[..|MissingPrefix|] == MissingPrefix)
  {
    assert MissingPrefix[0] == 'M';
    if |MissingPrefix| <= |m| {
      assert m[..|MissingPrefix|][0] == m[0];
    }
  }

  lemma InvalidKindRoundTrip()
    ensures ErrorOfMessage(Message(InvalidKind)) == Some(InvalidKind)
  {
    NotMissingPrefix(Message(InvalidKind));
  }

  lemma InvalidAmountFormatRoundTrip()
    ensures ErrorOfMessage(Message(InvalidAmountFormat)) == Some(InvalidAmountFormat)
  {
    NotMissingPrefix(Message(InvalidAmountFormat));
    assert |Message(InvalidAmountFormat)| != |Message(InvalidKind)|;
  }

  lemma NegativeAmountRoundTrip()
    ensures ErrorOfMessage(Message(NegativeAmount)) == Some(NegativeAmount)
  {
    NotMissingPrefix(Message(NegativeAmount));
    assert |Message(NegativeAmount)| != |Message(InvalidKind)|;
    assert |Message(NegativeAmount)| != |Message(InvalidAmountFormat)|;
  }

  lemma InvalidUserIdRoundTrip()
    ensures ErrorOfMessage(Message(InvalidUserId)) == Some(InvalidUserId)
  {
    NotMissingPrefix(Message(InvalidUserId));
  }

  lemma InvalidTimeRoundTrip()
    ensures ErrorOfMessage(Message(InvalidTime)) == Some(InvalidTime)
  {
    NotMissingPrefix(Message(InvalidTime));
  }

  lemma NonSequentialTimeRoundTrip()
    ensures ErrorOfMessage(Message(NonSequentialTime)) == Some(NonSequentialTime)
  {
    NotMissingPrefix(Message(NonSequentialTime));
    assert Message(NonSequentialTime)[0] != Message(InvalidAmountFormat)[0];
  }

  const RequiredFields: seq<string> := ["type", "amount", "user_id", "time"]

  /** The loop of app/routes.py:12-14 from position `i` on: the first required
      field, at or after `i`, that the payload lacks. */
  function FirstMissingFrom(p: Payload, i: nat): (r: Option<nat>)
    requires i <= |RequiredFields|
    ensures r.None? <==> forall j :: i <= j < |RequiredFields| ==> RequiredFields[j] in p
    ensures r.Some? ==> i <= r.value < |RequiredFields| && RequiredFields[r.value] !in p
    ensures r.Some? ==> forall j :: i <= j < r.value ==> RequiredFields[j] in p
    decreases |RequiredFields| - i
  {
    if i == |RequiredFields| then None
    else if RequiredFields[i] !in p then Some(i)
    else FirstMissingFrom(p, i + 1)
  }

  predicate HasRequiredFields(p: Payload)
  {
    "type" in p && "amount" in p && "user_id" in p && "time" in p
  }

  // The individual checks, each stated on its own.

  predicate KindOk(p: Payload)
  {
    "type" in p && (p["type"] == Str("deposit") || p["type"] == Str("withdraw"))
  }

  predicate AmountConverts(p: Payload)
  {
    "amount" in p && ToFloat(p["amount"]).Converted?
  }

  predicate AmountNonNegative(p: Payload)
  {
    AmountConverts(p) && ToFloat(p["amount"]).x >= 0.0
  }

  predicate UserIdOk(p: Payload)
  {
    "user_id" in p && p["user_id"].Int?
  }

  predicate TimeOk(p: Payload)
  {
    "time" in p && p["time"].Int?
  }

  /** The user has a stored history (whose `[-1]` is then looked up). */
  predicate Known(s: Store, p: Payload)
    requires UserIdOk(p)
  {
    p["user_id"].i in s
  }

  /** The new time is strictly after the user's last stored time. */
  predicate AfterLast(s: Store, p: Payload)
    requires UserIdOk(p) && TimeOk(p) && Known(s, p) && |s[p["user_id"].i]| > 0
  {
    var h := s[p["user_id"].i];
    p["time"].i > h[|h| - 1].time
  }

  /** What `validate_payload` decides: the event to store, the error to
      report, or an uncaught Python exception (`Raises`, an HTTP 500). */
  datatype Verdict = Valid(event: Event) | Invalid(error: ValidationError) | Raises

  function Validate(s: Store, p: Payload): (v: Verdict)
    ensures v.Valid? ==>
      && HasRequiredFields(p) && UserIdOk(p) && TimeOk(p)
      && v.event.kind == (if p["type"] == Str("deposit") then Deposit else Withdraw)
      && v.event.raw == p["amount"] && v.event.user == p["user_id"].i && v.event.time == p["time"].i
      && Admissible(v.event)
      && (v.event.user in s ==> |s[v.event.user]| > 0 && s[v.event.user][|s[v.event.user]| - 1].time < v.event.time)
  {
    match FirstMissingFrom(p, 0)
    case Some(i) => Invalid(MissingField(RequiredFields[i]))
    case None =>
      assert "type" == RequiredFields[0] && "amount" == RequiredFields[1];
      assert "user_id" == RequiredFields[2] && "time" == RequiredFields[3];
      if !KindOk(p) then Invalid(InvalidKind)
      else
        match ToFloat(p["amount"])
        case TypeError => Raises
        case OverflowError => Raises
        case ValueError => Invalid(InvalidAmountFormat)
        case Converted(x) =>
          if x < 0.0 then Invalid(NegativeAmount)
          else if !p["user_id"].Int? then Invalid(InvalidUserId)
          else if !p["time"].Int? then Invalid(InvalidTime)
          else
            var u, t := p["user_id"].i, p["time"].i;
            if u in s && |s[u]| == 0 then Raises
            else if u in s && t <= s[u][|s[u]| - 1].time then Invalid(NonSequentialTime)
            else
              var kind := if p["type"] == Str("deposit") then Deposit else Withdraw;
              Valid(Event(kind, x, p["amount"], u, t))
  }

  /** The compatibility contract of the check order: each error is reported
      exactly when every earlier check passed and its own check failed, and
      the event is accepted exactly when every check passed. */
  lemma ValidateChecksInOrder(s: Store, p: Payload)
    // 1. missing fields, the first one in the order type, amount, user_id, time
    ensures (Validate(s, p).Invalid? && Validate(s, p).error.MissingField?) <==> !HasRequiredFields(p)
    ensures Validate(s, p).Invalid? && Validate(s, p).error.MissingField? ==>
      exists i :: 0 <= i < |RequiredFields| && Validate(s, p).error.name == RequiredFields[i]
        && RequiredFields[i] !in p && forall j :: 0 <= j < i ==> RequiredFields[j] in p
    // 2. the action type
    ensures Validate(s, p) == Invalid(InvalidKind) <==> HasRequiredFields(p) && !KindOk(p)
    // 3. the amount's format, then its sign; `float` of null, an array, an object
    //    or an integer beyond the double range raises, and `except ValueError`
    //    does not catch it
    ensures Validate(s, p) == Invalid(InvalidAmountFormat) <==>
      HasRequiredFields(p) && KindOk(p) && ToFloat(p["amount"]).ValueError?
    ensures Validate(s, p) == Invalid(NegativeAmount) <==>
      HasRequiredFields(p) && KindOk(p) && AmountConverts(p) && !AmountNonNegative(p)
    // 4. user_id, then time, must be JSON integers
    ensures Validate(s, p) == Invalid(InvalidUserId) <==>
      HasRequiredFields(p) && KindOk(p) && AmountNonNegative(p) && !UserIdOk(p)
    ensures Validate(s, p) == Invalid(InvalidTime) <==>
      HasRequiredFields(p) && KindOk(p) && AmountNonNegative(p) && UserIdOk(p) && !TimeOk(p)
    // 5. the time must follow the user's last stored time
    ensures Validate(s, p) == Invalid(NonSequentialTime) <==>
      && HasRequiredFields(p) && KindOk(p) && AmountNonNegative(p) && UserIdOk(p) && TimeOk(p)
      && Known(s, p) && |s[p["user_id"].i]| > 0 && !AfterLast(s, p)
    ensures Validate(s, p).Raises? <==>
      HasRequiredFields(p) && KindOk(p) &&
      (|| ToFloat(p["amount"]).TypeError? || ToFloat(p["amount"]).OverflowError?
       || (AmountNonNegative(p) && UserIdOk(p) && TimeOk(p) && Known(s, p) && |s[p["user_id"].i]| == 0))
    // all checks passed
    ensures Validate(s, p).Valid? <==>
      && HasRequiredFields(p) && KindOk(p) && AmountNonNegative(p) && UserIdOk(p) && TimeOk(p)
      && (Known(s, p) ==> |s[p["user_id"].i]| > 0 && AfterLast(s, p))
  {
  }

  /** On a well-formed store the only exceptions left come from `float` of the
      amount: null, an array or an object, or an integer too large for a
      double. The `[-1]` lookup always succeeds. */
  lemma WellFormedRaisesOnlyOnAmount(s: Store, p: Payload)
    requires WellFormed(s)
    ensures Validate(s, p).Raises? <==>
      && HasRequiredFields(p) && KindOk(p)
      && (p["amount"].Other? || (p["amount"].Int? && TooLargeForFloat(p["amount"].i)))
  {
    ValidateChecksInOrder(s, p);
    if UserIdOk(p) && Known(s, p) {
      assert HistoryWellFormed(p["user_id"].i, s[p["user_id"].i]);
    }
  }

  /** Validation reads the store only at the submitting user's entry. */
  lemma ValidateReadsOwnEntry(s1: Store, s2: Store, p: Payload)
    requires UserIdOk(p) ==> (p["user_id"].i in s1 <==> p["user_id"].i in s2)
    requires UserIdOk(p) && p["user_id"].i in s1 ==> s1[p["user_id"].i] == s2[p["user_id"].i]
    ensures Validate(s1, p) == Validate(s2, p)
  {
  }

  /** An accepted event can be appended without breaking the store invariant. */
  lemma ValidKeepsWellFormed(s: Store, p: Payload)
    requires WellFormed(s) && Validate(s, p).Valid?
    ensures WellFormed(Append(s, Validate(s, p).event))
  {
    AppendPreservesWellFormed(s, Validate(s, p).event);
  }

}
